=== FILE: README.md ===
# JNE job-tracking dashboard — Dafny model

This project models the client-side logic of the JNE job dashboard. That
logic is a single-page React application that keeps a list of job records
for menu buckets. A bucket is a (category, sub-category) pair taken from a
fixed menu. The model covers:

- **Menu** (`menu.dfy`): the four categories, their sub-menus, and the
  literal that marks production master data.
- **Text** (`text.dfy`): the JavaScript string operations the application
  relies on. These are `trim`, the line split on `\r\n|\n`, the column split
  on `,|;`, `includes` and lower-casing.
- **JobImport** (`jobimport.dfy`): the upload parser of the list view. The
  header line is skipped, blank lines are skipped, and a line needs at least
  five columns. It also covers the status validation, the per-column
  fallbacks, the activation-date rule, and the downloadable template with
  its round trip through the parser.
- **JobManager** (`jobmanager.dfy`): the manual add form, the bucket and
  search filter of the list, and the red, green, blue or grey status badge.
- **Dashboard** (`dashboard.dfy`): the status counters, the overdue list,
  the "in process" card, the banner, the first-five overdue table, the
  four-slice pie, and the per-category bar tally in first-seen order.
- **Store** (`store.dfy`): the list handlers of the application shell: add
  to front, bulk add to front, update by id with field spreading, and delete
  after confirmation. It also covers loading from browser storage and
  writing back.
- **App** (`app.dfy`): the selected menu entry and the view it selects. It
  also models the application as a state machine whose every step writes
  the list back to storage.

Generic vocabulary lives in `seqs.dfy`: `Option`, `Result`, an
order-preserving `Filter`, and subsequence. The record type lives in
`jobs.dfy`.

The environment is passed in as parameters:

- **Dates.** A date text is read as an instant by a supplied
  `readDate: string -> Moment`. An unparsable date is `Invalid`, and like
  JavaScript's `NaN` it compares false with everything.
- **Current time.** The dashboard receives today's local midnight. The list
  view receives the current instant.
- **Ids.** Fresh ids come from a supply `ids: nat -> string`. The `k`-th
  imported record takes `ids(k)`.
- **Confirmation.** The answer to the delete confirmation is a boolean.

## Model

| member | source | states |
|---|---|---|
| Text.Trim | components/JobManager.tsx:97 | The trimmed text is empty exactly when the line is all ECMAScript white space. Otherwise it starts and ends with a non-space character. A text that already has non-space ends is returned unchanged. |
| Text.TrimCutsMargins | components/JobManager.tsx:97 | The trimmed text is a slice of the line that has only white space before it and only white space after it. Together with the contract of `Trim`, the margins cut off are exactly the white-space ones. |
| Text.DelimiterLineNotBlank | components/JobManager.tsx:97-103 | A line holding a separator is never blank, so the blank check can never reject a line the column check would accept. |
| Text.LineCount | components/JobManager.tsx:92 | Splitting on CRLF or LF gives one more line than the text has line feeds. A lone carriage return does not split. |
| Text.LinesHaveNoLineFeed | components/JobManager.tsx:92 | No line produced by the split contains a line feed. |
| Text.SplitAfterFirstLine | components/JobManager.tsx:92 | Whatever the first line holds, CR-terminated or not, the lines after it are exactly the lines of the text that follows its line feed. |
| Text.SplitLinesCons | components/JobManager.tsx:92 | A leading line with no line feed and no trailing carriage return is split off as the first line, whatever follows. |
| Text.SplitJoinLines | components/JobManager.tsx:92 | Lines joined with line feeds split back into the same lines. This needs each line free of line feeds and every line but the last free of a trailing carriage return. |
| Text.ColumnCount | components/JobManager.tsx:100 | The column split yields exactly one more column than the line has commas and semicolons. |
| Text.ColumnsHaveNoDelimiter | components/JobManager.tsx:100 | No column contains a separator. |
| Text.SplitJoinColumns | components/JobManager.tsx:100 | Separator-free fields joined with commas split back into the same fields. |
| Text.JoinSplitColumns | components/JobManager.tsx:100 | A line without semicolons is restored by joining its columns with commas. |
| Text.IncludesIffOccurs | components/JobManager.tsx:140-141 | `includes` holds exactly when the needle occurs at some position of the text. |
| Text.Lower | components/JobManager.tsx:140-141 | Lower-casing keeps the length and maps each character on its own. |
| Text.LowerIdempotent | components/JobManager.tsx:140-141 | Lower-casing twice equals lower-casing once. |
| Menu.SubmenusOf | constants.ts:3-20 | A key has sub-menus exactly when it is one of the menu keys, and then it has that entry's list. |
| Menu.MenuCategories | constants.ts:3-20 | There are four categories with distinct keys, and each key equals its display name. |
| Menu.SubmenusWellFormed | constants.ts:4-19 | Every sub-menu list is non-empty and names no entry twice. |
| Menu.SubmenuNamesShared | constants.ts:6-18 | "Routing" appears under two categories and "Nasional" under two others, so a sub-menu name alone does not identify a bucket. |
| Menu.ProductionMasterIsCategory | constants.ts:16-18 | The production master data literal is a menu key, and its sub-menus are Cabang and Nasional. |
| JobImport.ParseStatus | components/JobManager.tsx:104-109 | "In Progress", "Completed" and "Overdue" are kept. Every other text, the empty one included, becomes Pending. |
| JobImport.ParseStatusText | components/JobManager.tsx:106-108 | Every status literal is read back as itself. |
| JobImport.RecordFromColumns | components/JobManager.tsx:111-121 | The record has the given id and the selected bucket. Branch and job type are never empty, and with a non-empty today the dates are never empty either. An activation date is present exactly under production master data with a sixth column. |
| JobImport.LineRecordFields | components/JobManager.tsx:111-121 | For an accepted line, each field is the trimmed column. An empty trimmed column falls back to today, "Unknown", "Imported Job" or today. The status is the validated fourth column, and the activation date is the trimmed sixth column under production master data only. |
| JobImport.QualifiesIffFourSeparators | components/JobManager.tsx:97-103 | A line is turned into a record exactly when it holds at least four separators. |
| JobImport.ImportRows | components/JobManager.tsx:96-123 | The loop yields as many records as there are accepted lines. |
| JobImport.ParseImport | components/JobManager.tsx:92-123 | An upload yields one record per accepted data line, so never more records than data lines. |
| JobImport.ImportRowsAreAcceptedLines | components/JobManager.tsx:96-123 | The `k`-th record produced is built from the `k`-th accepted line, in line order, and takes the `next + k`-th id. |
| JobImport.MadeRecord | components/JobManager.tsx:96-123 | For any list of lines, the `k`-th record the loop builds with the importer's record maker is the record of the `k`-th accepted line, under the `k`-th fresh id. |
| JobImport.ImportedRecord | components/JobManager.tsx:92-123 | The `k`-th imported record is the record of the `k`-th accepted data line under the `k`-th fresh id. |
| JobImport.ImportLines | components/JobManager.tsx:92-123 | The batch has one record per data line with at least four separators, in order, with ids `ids(0)`, `ids(1)` and so on. |
| JobImport.ImportFile | components/JobManager.tsx:125-130 | A batch is handed over only when it is non-empty. An empty parse is reported as a format error. |
| JobImport.RejectedIffNoFiveColumnLine | components/JobManager.tsx:92-130 | The upload is rejected exactly when no data line has five columns. |
| JobImport.ImportedActivationDates | components/JobManager.tsx:120 | No imported record outside production master data carries an activation date. |
| JobImport.ImportedIdsDistinct | components/JobManager.tsx:112 | If the fresh ids never repeat, the batch has no duplicate ids. |
| JobImport.HeaderIgnored | components/JobManager.tsx:92-96 | Replacing the first line by any other single line leaves the batch unchanged. This holds whether the line ends in LF or CRLF. |
| JobImport.LeadingLineFeedReadsHeader | components/JobManager.tsx:92-96 | The first line is skipped even when it is empty. A text starting with a line feed has all its following lines, the header included, read as data lines. |
| JobImport.BlankLineSkipped | components/JobManager.tsx:97 | Inserting a blank line anywhere after the first line leaves the batch unchanged, ids included. |
| JobImport.TemplateColumns | components/JobManager.tsx:62-72 | The template header and its example row each have six columns under production master data and five elsewhere. |
| JobImport.TemplateText | components/JobManager.tsx:62-74 | The first line of the template text is the header. Its only data line is the example row. |
| JobImport.ExampleRowQualifies | components/JobManager.tsx:70-72 | The example row is accepted by the parser and splits back into its fields. |
| JobImport.TemplateReimport | components/JobManager.tsx:62-74 | Uploading the template yields exactly one record with the example values. It is Pending with an activation date of today under production master data, and In Progress with no activation date elsewhere. |
| JobManager.Submit | components/JobManager.tsx:36-48 | The new record has the fresh id and the open bucket. The typed date is kept, and a missing or empty date falls back to today. Branch, job type and deadline are the typed texts, and the empty text when unset. The typed status is kept, and a missing one becomes Pending. An activation date appears only under production master data. |
| JobManager.SubmitFreshForm | components/JobManager.tsx:29-48 | Submitting the untouched form gives a Pending record dated today, with empty texts and no activation date. |
| JobManager.SubmitActivationDate | components/JobManager.tsx:47 | Under production master data the typed activation date is kept as is. Elsewhere it is dropped. |
| JobManager.SubmitNeverOverdue | components/JobManager.tsx:269-277 | A form whose status comes from the three-option drop-down never stores Overdue. |
| JobManager.FilterJobs | components/JobManager.tsx:137-142 | Every listed record is in the open bucket and matches the lower-cased search term in its branch or job type. |
| JobManager.FilterJobsExactly | components/JobManager.tsx:137-142 | A record is listed exactly when it is stored, is in the bucket and matches the term. The list keeps the stored order. Each listed record appears as many times as it is stored. |
| JobManager.EmptyTermKeepsBucket | components/JobManager.tsx:137-142 | With an empty search term the list is every record of the bucket. |
| JobManager.SearchIgnoresTermCase | components/JobManager.tsx:140-141 | Lower-casing the term first does not change the list. |
| JobManager.SharedSubmenuSeparated | components/JobManager.tsx:138-139 | A record of (Penyesuaian, Routing) is never listed under (Problem, Routing). |
| JobManager.StatusTone | components/JobManager.tsx:144-152 | The badge is red exactly when the deadline reads as an instant before now and the status is not Completed. It is green exactly for Completed. It is blue for In Progress and grey for Pending or Overdue, in both cases only when not red. |
| JobManager.BadgeAgreesWithDeadlineCell | components/JobManager.tsx:357 | The status badge is red exactly when the deadline cell is printed in red. |
| JobManager.OverdueLiteralNotRed | components/JobManager.tsx:147-150 | A stored Overdue status whose deadline has not passed is shown grey, like Pending. |
| Dashboard.StatusCountsSum | components/DashboardSummary.tsx:18-21 | The counts of the four status literals add up to the total. |
| Dashboard.Summarize | components/DashboardSummary.tsx:17-33 | The total is the list length. The completed, pending and in-progress counters are the counts of their own status literal. The overdue count is the length of the overdue list, and every listed record is overdue. |
| Dashboard.StatusCountIsMultiplicity | components/DashboardSummary.tsx:19-21 | A status counter equals the number of times its literal occurs among the stored statuses. |
| Dashboard.StatusCountersPartition | components/DashboardSummary.tsx:18-21 | Completed plus pending plus in progress is the total minus the records carrying the Overdue literal. That sum is strictly less than the total exactly when such a record exists. |
| Dashboard.OverdueListExactly | components/DashboardSummary.tsx:23-30 | A record is in the overdue list exactly when it is stored, its deadline reads as an instant before midnight and it is not Completed. The list keeps the stored order and every copy of an overdue record. |
| Dashboard.CompletedNeverOverdue | components/DashboardSummary.tsx:27-30 | A Completed record is never in the overdue list. |
| Dashboard.InProcess | components/DashboardSummary.tsx:89 | The in-process card is the total minus the Completed records minus the records carrying the Overdue literal, and never exceeds the total. |
| Dashboard.BannerIffSomeOverdue | components/DashboardSummary.tsx:105-109 | The red banner appears exactly when some stored record is overdue. |
| Dashboard.OverdueTable | components/DashboardSummary.tsx:180 | The table is a prefix of the overdue list with min(5, overdue) rows. |
| Dashboard.OverdueTableRows | components/DashboardSummary.tsx:180 | The table has min(5, overdue) rows, and each is a stored overdue record. |
| Dashboard.PieData | components/DashboardSummary.tsx:35-40 | There are four slices, named after Pending, In Progress, Completed and Overdue in that order. Their values are the pending, in-progress, completed and overdue counters, in that order. |
| Dashboard.PieDoubleCounts | components/DashboardSummary.tsx:35-40 | The slices sum to the total, minus the Overdue-literal records, plus the deadline-overdue records. So an overdue unfinished record is counted in two slices. |
| Dashboard.Bump | components/DashboardSummary.tsx:45-47 | A known category keeps the bar order. A new category is appended as the last bar. |
| Dashboard.BumpCounts | components/DashboardSummary.tsx:46 | One step of the counting loop raises the bumped category's count by one, leaves every other count alone, and raises the sum by one. |
| Dashboard.Tally | components/DashboardSummary.tsx:43-51 | There are never more bars than records, and every bar names a category that occurs in the list. |
| Dashboard.BarData | components/DashboardSummary.tsx:43-52 | The bars add up to the number of records and no two share a name. A category has a bar exactly when some record has it. |
| Dashboard.TallyCounts | components/DashboardSummary.tsx:43-52 | Each bar counts exactly the records of its category. A category has a bar exactly when some record has it. The bars sum to the number of records. |
| Dashboard.TallyOrder | components/DashboardSummary.tsx:48-51 | The bars appear in the order their categories are first met in the list. |
| Dashboard.BarNamesDistinct | components/DashboardSummary.tsx:43-52 | No category gets two bars. |
| Dashboard.TallyExample | components/DashboardSummary.tsx:43-52 | Categories A, A, B give the bars A:2 then B:1. |
| Dashboard.DashboardOverdueIsHighlighted | components/DashboardSummary.tsx:23-30 | Every record the dashboard counts as overdue is highlighted red in the list view. |
| Dashboard.SameDayDeadlineOnlyHighlighted | components/JobManager.tsx:145 | A deadline at any instant from today's midnight up to now is highlighted in the list but not counted on the dashboard. The two notions of overdue differ. |
| Store.Merge | App.tsx:31 | Each of the nine fields takes the patch's value when the patch carries that key, and keeps the record's value otherwise. |
| Store.MergeEmpty | App.tsx:31 | Spreading an empty patch changes nothing. |
| Store.MergeIdempotent | App.tsx:31 | Spreading the same patch twice equals spreading it once. |
| Store.StatusPatchOnlyStatus | components/JobManager.tsx:348 | The status drop-down's update changes the status and nothing else. |
| Store.Update | App.tsx:30-32 | The list keeps its length. Records with another id are untouched, and records with the id are merged with the patch. |
| Store.UpdateAbsentIsNoOp | App.tsx:31 | Updating an id no record has leaves the list unchanged. |
| Store.UpdateIdempotent | App.tsx:31 | Applying the same update twice equals applying it once. |
| Store.UpdateKeepsIds | App.tsx:31 | A patch without an id keeps every id in place. |
| Store.Add | App.tsx:26-28 | The list grows by one. The new record comes first, and the previous list follows unchanged. |
| Store.BulkAdd | App.tsx:40-42 | The batch comes first in file order, and the previous list follows unchanged. |
| Store.Delete | App.tsx:34-38 | Without confirmation nothing changes. With it, no remaining record has the id, and the list does not grow. |
| Store.DeleteExactly | App.tsx:36 | A confirmed delete keeps exactly the records with another id, in their order, with every copy of each. |
| Store.DeleteAbsentIsNoOp | App.tsx:36 | Deleting an id no record has changes nothing. |
| Store.AddThenDelete | App.tsx:26-38 | Deleting a freshly added record gives back the previous list. |
| Store.BulkAddIsRepeatedAdd | App.tsx:40-42 | A bulk add equals adding the batch one record at a time, last record first. |
| Store.AddEachPrepends | App.tsx:40-42 | Adding the records of a batch one at a time, last record first, puts the whole batch in front of the list in file order. |
| Store.BulkAddTwice | App.tsx:40-42 | Two uploads in a row put the later batch in front of the earlier one. |
| Store.AddKeepsUniqueIds | App.tsx:26-28 | Adding a record with a fresh id keeps the ids unique. |
| Store.BulkAddKeepsUniqueIds | App.tsx:40-42 | Adding a batch whose ids are unique and not yet stored keeps the ids unique. |
| Store.DeleteKeepsUniqueIds | App.tsx:34-38 | Deleting never introduces a duplicate id. |
| Store.Load | App.tsx:12-15 | A missing or empty stored value loads as the empty list. The JSON of a record list loads as that list. Any other text that is not JSON makes loading fail. |
| Store.LoadPersist | App.tsx:12-19 | What is written back loads as the same list. |
| Store.PersistLoad | App.tsx:12-19 | Writing back a loaded list and loading it again gives the same list. |
| App.ViewOf | App.tsx:51-65 | With no truthy category the dashboard is shown. With a truthy category and a truthy sub-category the list view of exactly that pair is shown. Otherwise nothing is shown. |
| App.MenuNavigation | App.tsx:21-24 | Choosing a menu pair opens that bucket's list. Choosing only a category shows nothing. Clearing the selection shows the dashboard. |
| App.Start | App.tsx:8-19 | Start-up succeeds exactly when loading does. It then holds the loaded list and stores a copy of it. Neither a category nor a sub-category is selected, so the dashboard is shown. |
| App.Step | App.tsx:17-42 | After every event the stored copy equals the list. Navigation changes only the selection, and record events leave the selection alone. With the list view open, an update event runs the update-by-id handler on the list and a delete event runs the delete handler with the user's answer; with no list view open they change nothing. |
| App.DeclinedDeleteChangesNothing | App.tsx:34-38 | When the user declines the confirmation dialog, the records stay exactly as they were, whatever the id and whichever view is open. |
| App.ReloadRestoresList | App.tsx:12-19 | After any sequence of events, reloading gives back the list on screen. This holds by construction, because every step writes the list back and what is written loads unchanged. |
| App.RejectedUploadChangesNothing | components/JobManager.tsx:125-130 | A rejected upload leaves the records unchanged. |
| App.AcceptedUploadPrepends | App.tsx:40-42 | An upload puts exactly the parsed batch in front of the list. |
| App.SubmitLandsInBucket | App.tsx:26-28 | A submitted form adds one record at the front, in the open bucket, with the fresh id. |
| App.CompletedLeavesOverdueList | components/DashboardSummary.tsx:27-30 | After a record is marked Completed it is not in the dashboard's overdue list. |
| App.StatusChangeKeepsDeadline | components/DashboardSummary.tsx:27-30 | A status change alters no field but the status. Afterwards a record is on the overdue list exactly when the deadline it already had reads before midnight and its new status is not Completed. |
| App.NavigationKeepsRecords | App.tsx:21-24 | Navigating never changes the records. |

## Statuses and stored data

- **Stored status.** The add form and the row drop-down offer three
  statuses (components/JobManager.tsx:274-276 and :351-353). The importer
  also keeps the literal "Overdue" (components/JobManager.tsx:107-108). So
  `Status` has four values. The dashboard's three status counters then
  miss such records (`Dashboard.StatusCountersPartition`).
- **Stored text that is not JSON.** App.tsx:14 calls `JSON.parse` on any
  non-empty stored text without a guard. Such text therefore makes start-up
  throw. `Store.Load` returns `Failure` there, and `App.Start` fails with
  it.

## Left out

- Layout.tsx (the sidebar) is not part of this model. Its only effect is to
  call the navigation handler with a category and sub-category, which
  `App.Event.Navigate` takes as given.
- Rendering, styling, icons, charts as drawn, the form/list toggle, form
  reset, and the `required` attributes of the form inputs are left out.
  They are presentation, and the browser enforces `required` before the
  handler runs.
- The template download mechanics (data URI, `encodeURI`, anchor element,
  file name) are left out. Only the text of the file is modelled
  (`JobImport.TemplateText`).
- FileReader, the file picker and its reset, and the `alert` and `confirm`
  dialogs are left out. They are browser I/O, and the confirmation answer
  is a parameter.
- `crypto.randomUUID` is replaced by a supplied id sequence. Uniqueness of
  UUIDs is a property of the browser, so it is an assumption
  (`JobImport.ImportedIdsDistinct`) rather than a fact.
- Date parsing, `toISOString`, time zones, `setHours(0, 0, 0, 0)` and
  `Date.now() + 7 days` are left out. They are the platform's. Dates are
  read through `readDate`, and today, next week, the current instant and
  local midnight are parameters.
- JSON encoding is left out. `Store.Blob.Written` stands for the JSON of a
  record list, which `JSON.parse` reads back to the same list.
  `Store.Blob.Unparsable` is text that `JSON.parse` rejects.
- Valid JSON that is not a list of records is not modelled. Examples are
  `{}`, `42` and a list of other objects. `JSON.parse` accepts such text
  and the application then works on a value of the wrong shape.
- Text.Lower: lower-cases ASCII letters only. Full Unicode `toLowerCase`
  (including characters whose lower case has a different length) is not
  modelled.
- Dashboard.TallyOrder: states insertion order, which is what
  `Object.keys` gives for string keys. `Object.keys` lists keys that look
  like array indices (such as "12") first, in numeric order, and that
  reordering is not modelled. The menu's category names are never of that
  form.
- Dashboard.BarData: the counts object is a plain `{}`
  (components/DashboardSummary.tsx:44). A category named after an
  `Object.prototype` member, such as "constructor" or "toString", starts
  from an inherited function rather than from `undefined`, and that case is
  not modelled. No menu category has such a name.
- Store.Merge: a patch key that is present but set to `undefined` overwrites
  the field with `undefined` in JavaScript. The model's `Patch` cannot
  express that, and the application only sends `{ status }`.
- JobImport.ParseImport: non-string file contents and read errors of the
  FileReader are left out. The parser receives the text.

=== FILE: app.dfy ===
/** The application shell: the selected menu entry, the view it selects,
    the record list with its storage copy, and the handlers the views call. */
module App {
  import opened Seqs
  import opened Jobs
  import Menu
  import JobImport
  import JobManager
  import Dashboard
  import Store

  // ---------------------------------------------------------------- navigation

  /** The active category and sub-category, `string | null` each. */
  datatype Selection = Selection(category: Option<string>, subCategory: Option<string>)

  /** JavaScript truthiness of an optional text: neither null nor empty. */
  predicate Truthy(v: Option<string>) {
    v.Some? && v.value != ""
  }

  /** What the main area shows. */
  datatype View = DashboardView | NothingView | ManagerView(bucket: Bucket)

  /** No category: the dashboard; a category without a sub-category:
      nothing; both: the list view of that bucket. */
  function ViewOf(sel: Selection): (v: View)
    ensures v == DashboardView <==> !Truthy(sel.category)
    ensures v.ManagerView? <==> Truthy(sel.category) && Truthy(sel.subCategory)
    ensures v.ManagerView? ==> v.bucket == Bucket(sel.category.value, sel.subCategory.value)
  {
    if !Truthy(sel.category) then DashboardView
    else if Truthy(sel.subCategory) then ManagerView(Bucket(sel.category.value, sel.subCategory.value))
    else NothingView
  }

  /** Choosing a sub-menu entry opens the list view of exactly that pair;
      choosing only a category shows nothing; clearing the selection shows
      the dashboard. */
  lemma MenuNavigation(category: string, subCategory: string)
    requires Menu.IsMenuPair(category, subCategory)
    ensures ViewOf(Selection(Some(category), Some(subCategory))) == ManagerView(Bucket(category, subCategory))
    ensures ViewOf(Selection(Some(category), None)) == NothingView
    ensures ViewOf(Selection(None, None)) == DashboardView
  {
    Menu.MenuCategories();
    Menu.SubmenusWellFormed();
    var i :| 0 <= i < |Menu.MenuStructure| && Menu.MenuStructure[i].key == category;
    assert category != "";
    var k :| 0 <= k < |Menu.MenuStructure[i].submenus| && Menu.MenuStructure[i].submenus[k] == subCategory;
    assert subCategory != "";
  }

  // ---------------------------------------------------------------- state

  /** The application state: the records, the selection, and the stored copy. */
  datatype AppState = AppState(jobs: seq<Job>, selection: Selection, saved: Store.Blob)

  /** The stored copy is the list (what the persisting effect maintains). */
  predicate InSync(s: AppState) {
    s.saved == Store.Persist(s.jobs)
  }

  /** Mounting: the list is read from storage (a stored text that is not
      JSON makes the start-up throw), nothing is selected, and the effect
      writes the list. */
  function Start(b: Store.Blob): (r: Result<AppState, string>)
    ensures r.Success? <==> Store.Load(b).Success?
    ensures r.Success? ==> InSync(r.value) && r.value.jobs == Store.Load(b).value
    ensures r.Success? ==> r.value.selection == Selection(None, None)
    ensures r.Success? ==> ViewOf(r.value.selection) == DashboardView
  {
    match Store.Load(b)
    case Success(jobs) => Success(AppState(jobs, Selection(None, None), Store.Persist(jobs)))
    case Failure(e) => Failure(e)
  }

  /** What the user can do. The record events come from the list view and
      carry what the handlers draw from the environment: today's date, a
      fresh id or id supply, the answer to the confirmation dialog. */
  datatype Event =
    | Navigate(category: Option<string>, subCategory: Option<string>)
    | SubmitForm(form: JobManager.Form, today: string, id: string)
    | UpdateJob(id: string, patch: Patch)
    | DeleteJob(id: string, confirmed: bool)
    | Upload(text: string, today: string, ids: nat -> string)

  /** The list the handlers leave behind; record events need the list view
      to be open, and do nothing otherwise. */
  function NextJobs(s: AppState, e: Event): seq<Job> {
    match e
    case Navigate(_, _) => s.jobs
    case SubmitForm(form, today, id) =>
      (match ViewOf(s.selection)
       case ManagerView(bucket) => Store.Add(s.jobs, JobManager.Submit(form, bucket, today, id))
       case _ => s.jobs)
    case UpdateJob(id, patch) =>
      if ViewOf(s.selection).ManagerView? then Store.Update(s.jobs, id, patch) else s.jobs
    case DeleteJob(id, confirmed) =>
      if ViewOf(s.selection).ManagerView? then Store.Delete(s.jobs, id, confirmed) else s.jobs
    case Upload(text, today, ids) =>
      (match ViewOf(s.selection)
       case ManagerView(bucket) =>
         (match JobImport.ImportFile(text, JobImport.ImportContext(bucket, today), ids)
          case Imported(batch) => Store.BulkAdd(s.jobs, batch)
          case Rejected => s.jobs)
       case _ => s.jobs)
  }

  /** One event, followed by the persisting effect. */
  function Step(s: AppState, e: Event): (t: AppState)
    ensures InSync(t)
    ensures e.Navigate? ==> t.jobs == s.jobs && t.selection == Selection(e.category, e.subCategory)
    ensures !e.Navigate? ==> t.selection == s.selection
    ensures e.UpdateJob? && ViewOf(s.selection).ManagerView? ==>
              t.jobs == Store.Update(s.jobs, e.id, e.patch)
    ensures e.DeleteJob? && ViewOf(s.selection).ManagerView? ==>
              t.jobs == Store.Delete(s.jobs, e.id, e.confirmed)
    ensures (e.UpdateJob? || e.DeleteJob?) && !ViewOf(s.selection).ManagerView? ==> t.jobs == s.jobs
  {
    var jobs := NextJobs(s, e);
    var selection := if e.Navigate? then Selection(e.category, e.subCategory) else s.selection;
    AppState(jobs, selection, Store.Persist(jobs))
  }

  function Run(s: AppState, events: seq<Event>): AppState
    decreases |events|
  {
    if |events| == 0 then s else Run(Step(s, events[0]), events[1..])
  }

  /** After any sequence of events, reloading the page gives back the list
      the user was looking at. */
  lemma {:induction false} ReloadRestoresList(s: AppState, events: seq<Event>)
    requires InSync(s)
    ensures InSync(Run(s, events))
    ensures Store.Load(Run(s, events).saved) == Success(Run(s, events).jobs)
    decreases |events|
  {
    if |events| > 0 {
      ReloadRestoresList(Step(s, events[0]), events[1..]);
    } else {
      Store.LoadPersist(s.jobs);
    }
  }

  /** Declining the confirmation dialog leaves the records as they were,
      whatever the id. */
  lemma DeclinedDeleteChangesNothing(s: AppState, id: string)
    ensures Step(s, DeleteJob(id, false)).jobs == s.jobs
  {
  }

  /** A rejected upload leaves the records as they were. */
  lemma RejectedUploadChangesNothing(s: AppState, text: string, today: string, ids: nat -> string)
    requires ViewOf(s.selection).ManagerView?
    requires JobImport.ImportFile(text, JobImport.ImportContext(ViewOf(s.selection).bucket, today), ids).Rejected?
    ensures Step(s, Upload(text, today, ids)).jobs == s.jobs
  {
  }

  /** An accepted upload puts exactly the parsed batch in front of the list. */
  lemma AcceptedUploadPrepends(s: AppState, text: string, today: string, ids: nat -> string)
    requires ViewOf(s.selection).ManagerView?
    ensures var ctx := JobImport.ImportContext(ViewOf(s.selection).bucket, today);
            var batch := JobImport.ParseImport(text, ctx, ids);
            Step(s, Upload(text, today, ids)).jobs == batch + s.jobs
  {
    var ctx := JobImport.ImportContext(ViewOf(s.selection).bucket, today);
    var outcome := JobImport.ImportFile(text, ctx, ids);
    if outcome.Rejected? {
      assert NextJobs(s, Upload(text, today, ids)) == s.jobs;
      assert JobImport.ParseImport(text, ctx, ids) + s.jobs == s.jobs;
    } else {
      assert NextJobs(s, Upload(text, today, ids)) == Store.BulkAdd(s.jobs, outcome.batch);
    }
  }

  /** A submitted form lands at the front of the list, in the open bucket. */
  lemma SubmitLandsInBucket(s: AppState, form: JobManager.Form, today: string, id: string)
    requires ViewOf(s.selection).ManagerView?
    ensures var t := Step(s, SubmitForm(form, today, id));
            |t.jobs| == |s.jobs| + 1 && t.jobs[1..] == s.jobs &&
            t.jobs[0].id == id && t.jobs[0].BucketOf() == ViewOf(s.selection).bucket
  {
  }

  /** Marking a record Completed takes it off the dashboard's overdue list. */
  lemma CompletedLeavesOverdueList(s: AppState, id: string, readDate: DateReader, midnight: int, x: Job)
    requires ViewOf(s.selection).ManagerView?
    requires x in Step(s, UpdateJob(id, StatusPatch(Completed))).jobs && x.id == id
    ensures x !in Dashboard.Summarize(Step(s, UpdateJob(id, StatusPatch(Completed))).jobs, readDate, midnight).overdueList
  {
    var t := Step(s, UpdateJob(id, StatusPatch(Completed)));
    var i :| 0 <= i < |t.jobs| && t.jobs[i] == x;
    if s.jobs[i].id == id {
      Store.StatusPatchOnlyStatus(s.jobs[i], Completed);
    }
    Dashboard.CompletedNeverOverdue(t.jobs, readDate, midnight, x);
  }

  /** A status change touches nothing but the status, so after it a record
      is on the dashboard's overdue list exactly when the deadline it already
      had reads before midnight and its status is not Completed. */
  lemma StatusChangeKeepsDeadline(s: AppState, id: string, status: Status, readDate: DateReader, midnight: int, i: int)
    requires 0 <= i < |s.jobs|
    ensures var t := Step(s, UpdateJob(id, StatusPatch(status)));
            |t.jobs| == |s.jobs| && t.jobs[i] == s.jobs[i].(status := t.jobs[i].status)
    ensures var t := Step(s, UpdateJob(id, StatusPatch(status)));
            var d := readDate(s.jobs[i].deadline);
            t.jobs[i] in Dashboard.Summarize(t.jobs, readDate, midnight).overdueList
            <==> d.At? && d.time < midnight && t.jobs[i].status != Completed
  {
    var t := Step(s, UpdateJob(id, StatusPatch(status)));
    if ViewOf(s.selection).ManagerView? && s.jobs[i].id == id {
      Store.StatusPatchOnlyStatus(s.jobs[i], status);
    }
    Dashboard.OverdueListExactly(t.jobs, readDate, midnight, t.jobs[i]);
  }

  /** Navigating never changes the records. */
  lemma NavigationKeepsRecords(s: AppState, category: Option<string>, subCategory: Option<string>)
    ensures Step(s, Navigate(category, subCategory)).jobs == s.jobs
  {
  }
}

=== FILE: dashboard.dfy ===
/** The summary page: the status counters, the overdue counter and list,
    the status pie, and the per-category bar chart. */
module Dashboard {
  import opened Seqs
  import opened Jobs
  import JobManager

  // ---------------------------------------------------------------- counters

  function HasStatus(s: Status): Job -> bool {
    (j: Job) => j.status == s
  }

  /** `jobs.filter(j => j.status === s).length`. */
  function StatusCount(jobs: seq<Job>, s: Status): nat {
    Count(jobs, HasStatus(s))
  }

  /** Overdue on the dashboard: the deadline reads as an instant strictly
      before today's local midnight, and the record is not Completed. */
  predicate OverdueOnDashboard(job: Job, readDate: DateReader, midnight: int) {
    var d := readDate(job.deadline);
    d.At? && d.time < midnight && job.status != Completed
  }

  function OverdueAt(readDate: DateReader, midnight: int): Job -> bool {
    (j: Job) => OverdueOnDashboard(j, readDate, midnight)
  }

  /** The stored status of each record, in list order. */
  function Statuses(jobs: seq<Job>): (r: seq<Status>)
    ensures |r| == |jobs|
    ensures forall i :: 0 <= i < |jobs| ==> r[i] == jobs[i].status
  {
    if |jobs| == 0 then [] else [jobs[0].status] + Statuses(jobs[1..])
  }

  /** A status counter is the number of times its literal occurs among the
      stored statuses. */
  lemma {:induction false} StatusCountIsMultiplicity(jobs: seq<Job>, s: Status)
    ensures StatusCount(jobs, s) == multiset(Statuses(jobs))[s]
  {
    if |jobs| > 0 {
      StatusCountIsMultiplicity(jobs[1..], s);
      assert Statuses(jobs) == [jobs[0].status] + Statuses(jobs[1..]);
    }
  }

  /** Every status falls in exactly one of the four counters. */
  lemma {:induction false} StatusCountsSum(jobs: seq<Job>)
    ensures StatusCount(jobs, Pending) + StatusCount(jobs, InProgress)
          + StatusCount(jobs, Completed) + StatusCount(jobs, Overdue) == |jobs|
  {
    if |jobs| > 0 {
      StatusCountsSum(jobs[1..]);
    }
  }

  datatype Stats = Stats(
    total: nat,
    completed: nat,
    pending: nat,
    inProgress: nat,
    overdue: nat,
    overdueList: seq<Job>)

  /** `stats`: `midnight` is today's local midnight, the instant the
      deadlines are compared with. */
  function Summarize(jobs: seq<Job>, readDate: DateReader, midnight: int): (st: Stats)
    ensures st.total == |jobs|
    ensures st.completed == StatusCount(jobs, Completed)
    ensures st.pending == StatusCount(jobs, Pending)
    ensures st.inProgress == StatusCount(jobs, InProgress)
    ensures st.completed + st.pending + st.inProgress <= st.total
    ensures st.overdue == |st.overdueList| <= st.total
    ensures forall i :: 0 <= i < |st.overdueList| ==>
              OverdueOnDashboard(st.overdueList[i], readDate, midnight)
  {
    StatusCountsSum(jobs);
    var overdueList := Filter(jobs, OverdueAt(readDate, midnight));
    assert forall i :: 0 <= i < |overdueList| ==> OverdueAt(readDate, midnight)(overdueList[i]);
    Stats(|jobs|, StatusCount(jobs, Completed), StatusCount(jobs, Pending), StatusCount(jobs, InProgress),
          |overdueList|, overdueList)
  }

  /** The three status counters miss exactly the records whose stored status
      is the literal Overdue; they fall short of the total iff there is one. */
  lemma StatusCountersPartition(jobs: seq<Job>, readDate: DateReader, midnight: int)
    ensures var st := Summarize(jobs, readDate, midnight);
            st.completed + st.pending + st.inProgress == st.total - StatusCount(jobs, Overdue)
    ensures var st := Summarize(jobs, readDate, midnight);
            st.completed + st.pending + st.inProgress < st.total <==>
            exists i :: 0 <= i < |jobs| && jobs[i].status == Overdue
  {
    StatusCountsSum(jobs);
    FilterEmptyIff(jobs, HasStatus(Overdue));
    if exists i :: 0 <= i < |jobs| && jobs[i].status == Overdue {
      var i :| 0 <= i < |jobs| && jobs[i].status == Overdue;
      assert HasStatus(Overdue)(jobs[i]);
    }
  }

  /** The overdue list holds exactly the stored records that are overdue,
      in their stored order. */
  lemma OverdueListExactly(jobs: seq<Job>, readDate: DateReader, midnight: int, x: Job)
    ensures var st := Summarize(jobs, readDate, midnight);
            x in st.overdueList <==> x in jobs && OverdueOnDashboard(x, readDate, midnight)
    ensures IsSubsequence(Summarize(jobs, readDate, midnight).overdueList, jobs)
    ensures multiset(Summarize(jobs, readDate, midnight).overdueList)[x]
            == if OverdueOnDashboard(x, readDate, midnight) then multiset(jobs)[x] else 0
  {
    FilterMembership(jobs, OverdueAt(readDate, midnight), x);
    FilterIsSubsequence(jobs, OverdueAt(readDate, midnight));
    FilterMultiplicity(jobs, OverdueAt(readDate, midnight), x);
  }

  /** A Completed record is never overdue, whatever its deadline. */
  lemma CompletedNeverOverdue(jobs: seq<Job>, readDate: DateReader, midnight: int, x: Job)
    requires x.status == Completed
    ensures x !in Summarize(jobs, readDate, midnight).overdueList
  {
    OverdueListExactly(jobs, readDate, midnight, x);
  }

  /** "In process" on the status card, `inProgress + pending`: the records
      that are neither Completed nor carry the Overdue literal. */
  function InProcess(jobs: seq<Job>, readDate: DateReader, midnight: int): (n: nat)
    ensures n == |jobs| - StatusCount(jobs, Completed) - StatusCount(jobs, Overdue)
    ensures n <= |jobs|
  {
    StatusCountsSum(jobs);
    var st := Summarize(jobs, readDate, midnight);
    st.inProgress + st.pending
  }

  /** The red banner (and the overdue table) appear exactly when some
      stored record is overdue. */
  predicate ShowsOverdueBanner(st: Stats) {
    st.overdue > 0
  }

  lemma BannerIffSomeOverdue(jobs: seq<Job>, readDate: DateReader, midnight: int)
    ensures ShowsOverdueBanner(Summarize(jobs, readDate, midnight)) <==>
            exists i :: 0 <= i < |jobs| && OverdueOnDashboard(jobs[i], readDate, midnight)
  {
    FilterEmptyIff(jobs, OverdueAt(readDate, midnight));
    if exists i :: 0 <= i < |jobs| && OverdueOnDashboard(jobs[i], readDate, midnight) {
      var i :| 0 <= i < |jobs| && OverdueOnDashboard(jobs[i], readDate, midnight);
      assert OverdueAt(readDate, midnight)(jobs[i]);
    }
  }

  /** `overdueList.slice(0, 5)`: the first five overdue records. */
  function OverdueTable(st: Stats): (rows: seq<Job>)
    ensures |rows| == if |st.overdueList| < 5 then |st.overdueList| else 5
    ensures rows <= st.overdueList
  {
    if |st.overdueList| <= 5 then st.overdueList else st.overdueList[..5]
  }

  /** The table shows min(5, overdue) rows, each an overdue stored record. */
  lemma OverdueTableRows(jobs: seq<Job>, readDate: DateReader, midnight: int)
    ensures var st := Summarize(jobs, readDate, midnight);
            var rows := OverdueTable(st);
            && |rows| == (if st.overdue < 5 then st.overdue else 5)
            && forall i :: 0 <= i < |rows| ==> rows[i] in jobs && OverdueOnDashboard(rows[i], readDate, midnight)
  {
    var st := Summarize(jobs, readDate, midnight);
    var rows := OverdueTable(st);
    forall i | 0 <= i < |rows|
      ensures rows[i] in jobs && OverdueOnDashboard(rows[i], readDate, midnight)
    {
      assert rows[i] == st.overdueList[i];
      OverdueListExactly(jobs, readDate, midnight, rows[i]);
    }
  }

  // ---------------------------------------------------------------- pie

  datatype Slice = Slice(name: string, value: nat)

  /** `pieData`: four slices, in the order Pending, In Progress, Completed,
      Overdue. */
  function PieData(st: Stats): (p: seq<Slice>)
    ensures |p| == 4
    ensures p[0].name == StatusText(Pending) && p[1].name == StatusText(InProgress)
    ensures p[2].name == StatusText(Completed) && p[3].name == StatusText(Overdue)
    ensures p[0].value == st.pending && p[1].value == st.inProgress
    ensures p[2].value == st.completed && p[3].value == st.overdue
  {
    [Slice("Pending", st.pending), Slice("In Progress", st.inProgress),
     Slice("Completed", st.completed), Slice("Overdue", st.overdue)]
  }

  function SliceTotal(p: seq<Slice>): nat {
    if |p| == 0 then 0 else p[0].value + SliceTotal(p[1..])
  }

  /** The pie's slices add up to the total, minus the records carrying the
      Overdue literal, plus the records overdue by deadline: an overdue
      Pending or In Progress record is counted in two slices. */
  lemma PieDoubleCounts(jobs: seq<Job>, readDate: DateReader, midnight: int)
    ensures var st := Summarize(jobs, readDate, midnight);
            SliceTotal(PieData(st)) == |jobs| - StatusCount(jobs, Overdue) + st.overdue
  {
    StatusCountsSum(jobs);
    var st := Summarize(jobs, readDate, midnight);
    var p := PieData(st);
    assert SliceTotal(p[3..]) == p[3].value + SliceTotal(p[4..]);
    assert SliceTotal(p[2..]) == p[2].value + SliceTotal(p[3..]);
    assert SliceTotal(p[1..]) == p[1].value + SliceTotal(p[2..]);
  }

  // ---------------------------------------------------------------- bars

  /** One bar of the category chart. */
  datatype Bar = Bar(name: string, count: nat)

  function Names(bars: seq<Bar>): (r: seq<string>)
    ensures |r| == |bars|
    ensures forall i :: 0 <= i < |bars| ==> r[i] == bars[i].name
  {
    if |bars| == 0 then [] else [bars[0].name] + Names(bars[1..])
  }

  predicate DistinctNames(bars: seq<Bar>) {
    forall i, j :: 0 <= i < j < |bars| ==> bars[i].name != bars[j].name
  }

  /** `counts[name]`, or 0 when the key is absent. */
  function CountOf(bars: seq<Bar>, name: string): nat {
    if |bars| == 0 then 0
    else if bars[0].name == name then bars[0].count
    else CountOf(bars[1..], name)
  }

  function BarTotal(bars: seq<Bar>): nat {
    if |bars| == 0 then 0 else bars[0].count + BarTotal(bars[1..])
  }

  /** `counts[c] = (counts[c] || 0) + 1`: an existing key is incremented in
      place, a new key is appended with count 1. */
  function Bump(bars: seq<Bar>, c: string): (r: seq<Bar>)
    ensures c in Names(bars) ==> Names(r) == Names(bars)
    ensures c !in Names(bars) ==> Names(r) == Names(bars) + [c]
  {
    if |bars| == 0 then [Bar(c, 1)]
    else if bars[0].name == c then [Bar(c, bars[0].count + 1)] + bars[1..]
    else
      assert Names(bars) == [bars[0].name] + Names(bars[1..]);
      [bars[0]] + Bump(bars[1..], c)
  }

  lemma {:induction false} BumpCounts(bars: seq<Bar>, c: string, n: string)
    ensures CountOf(Bump(bars, c), n) == CountOf(bars, n) + (if n == c && c !in Names(bars) then 1 else 0)
                                          + (if n == c && c in Names(bars) then 1 else 0)
    ensures BarTotal(Bump(bars, c)) == BarTotal(bars) + 1
  {
    if |bars| > 0 {
      assert Names(bars) == [bars[0].name] + Names(bars[1..]);
      if bars[0].name != c {
        BumpCounts(bars[1..], c, n);
      }
    }
  }

  /** `jobs.map(j => j.category)`. */
  function Categories(jobs: seq<Job>): (r: seq<string>)
    ensures |r| == |jobs|
    ensures forall i :: 0 <= i < |jobs| ==> r[i] == jobs[i].category
  {
    if |jobs| == 0 then [] else [jobs[0].category] + Categories(jobs[1..])
  }

  /** The counting loop over the categories, then `Object.keys(counts)` in
      insertion order. */
  function Tally(cats: seq<string>): (r: seq<Bar>)
    ensures |r| <= |cats|
    ensures forall i :: 0 <= i < |r| ==> r[i].name in cats
    decreases |cats|
  {
    if |cats| == 0 then []
    else
      var init := cats[..|cats| - 1];
      var c := cats[|cats| - 1];
      var bars := Tally(init);
      var r := Bump(bars, c);
      assert forall i :: 0 <= i < |bars| ==> bars[i].name in cats by {
        assert forall x :: x in init ==> x in cats;
      }
      assert forall i :: 0 <= i < |r| ==> Names(r)[i] == r[i].name;
      assert forall i :: 0 <= i < |bars| ==> Names(bars)[i] == bars[i].name;
      r
  }

  /** `barData`: one bar per category met, with the bars adding up to the
      number of records. */
  function BarData(jobs: seq<Job>): (r: seq<Bar>)
    ensures BarTotal(r) == |jobs|
    ensures DistinctNames(r)
    ensures forall n :: n in Names(r) <==> exists i :: 0 <= i < |jobs| && jobs[i].category == n
  {
    var cats := Categories(jobs);
    TallyCounts(cats, "");
    BarNamesDistinct(cats);
    assert forall n :: n in Names(Tally(cats)) <==> n in cats by {
      forall n
        ensures n in Names(Tally(cats)) <==> n in cats
      {
        TallyCounts(cats, n);
      }
    }
    Tally(cats)
  }

  /** Each bar counts exactly the occurrences of its category, and the bars
      add up to the number of records. */
  lemma {:induction false} TallyCounts(cats: seq<string>, n: string)
    ensures CountOf(Tally(cats), n) == multiset(cats)[n]
    ensures BarTotal(Tally(cats)) == |cats|
    ensures n in Names(Tally(cats)) <==> n in cats
    decreases |cats|
  {
    if |cats| > 0 {
      var init := cats[..|cats| - 1];
      var c := cats[|cats| - 1];
      assert cats == init + [c];
      TallyCounts(init, n);
      BumpCounts(Tally(init), c, n);
    }
  }

  /** Position of the first occurrence of `x` in `s`. */
  function FirstIndex(s: seq<string>, x: string): (k: nat)
    requires x in s
    ensures k < |s| && s[k] == x && x !in s[..k]
  {
    if s[0] == x then 0
    else
      var k := 1 + FirstIndex(s[1..], x);
      assert s[..k] == [s[0]] + s[1..][..k - 1];
      k
  }

  lemma FirstIndexAppend(s: seq<string>, c: string, x: string)
    requires x in s
    ensures FirstIndex(s + [c], x) == FirstIndex(s, x)
  {
    var k := FirstIndex(s, x);
    var k' := FirstIndex(s + [c], x);
    assert (s + [c])[k] == x;
    assert (s + [c])[..k] == s[..k];
    assert k' <= k;
    assert (s + [c])[..k'] == s[..k'];
    assert s[k'] == x;
  }

  /** The bars name each category once, in the order the categories are
      first met in the list. */
  lemma {:induction false} TallyOrder(cats: seq<string>)
    ensures var names := Names(Tally(cats));
            forall i, j :: 0 <= i < j < |names| ==>
              names[i] in cats && names[j] in cats && FirstIndex(cats, names[i]) < FirstIndex(cats, names[j])
    decreases |cats|
  {
    if |cats| > 0 {
      var init := cats[..|cats| - 1];
      var c := cats[|cats| - 1];
      assert cats == init + [c];
      TallyOrder(init);
      var old_ := Names(Tally(init));
      var names := Names(Tally(cats));
      forall i, j | 0 <= i < j < |names|
        ensures names[i] in cats && names[j] in cats && FirstIndex(cats, names[i]) < FirstIndex(cats, names[j])
      {
        TallyCounts(init, names[i]);
        if j < |old_| {
          assert names[i] == old_[i] && names[j] == old_[j];
          TallyCounts(init, names[j]);
          FirstIndexAppend(init, c, names[i]);
          FirstIndexAppend(init, c, names[j]);
        } else {
          assert c !in old_ && names[j] == c;
          TallyCounts(init, c);
          FirstIndexAppend(init, c, names[i]);
          assert c !in init;
          var k := FirstIndex(cats, c);
          assert cats[..|init|] == init;
          assert k == |init|;
        }
      }
    }
  }

  /** No category gets two bars. */
  lemma BarNamesDistinct(cats: seq<string>)
    ensures DistinctNames(Tally(cats))
  {
    TallyOrder(cats);
    assert var names := Names(Tally(cats));
            forall i, j :: 0 <= i < j < |names| ==>
              names[i] in cats && names[j] in cats && FirstIndex(cats, names[i]) < FirstIndex(cats, names[j]);
    var names := Names(Tally(cats));
    forall i, j | 0 <= i < j < |names|
      ensures names[i] != names[j]
    {
    }
  }

  /** Categories A, A, B give the bars A:2 then B:1. */
  lemma TallyExample()
    ensures Tally(["A", "A", "B"]) == [Bar("A", 2), Bar("B", 1)]
  {
    assert ["A", "A", "B"][..2] == ["A", "A"];
    assert ["A", "A"][..1] == ["A"];
    assert ["A"][..0] == [];
    assert Tally(["A"]) == [Bar("A", 1)];
    assert Tally(["A", "A"]) == [Bar("A", 2)];
    assert Bump([Bar("A", 2)], "B") == [Bar("A", 2)] + Bump([], "B");
  }

  // ---------------------------------------------------------------- two notions of overdue

  /** Whenever the dashboard counts a record as overdue, its row in the list
      view is highlighted too: a deadline before midnight is before now. */
  lemma DashboardOverdueIsHighlighted(job: Job, readDate: DateReader, midnight: int, now: int)
    requires midnight <= now
    requires OverdueOnDashboard(job, readDate, midnight)
    ensures JobManager.DeadlineRed(job, readDate, now)
  {
  }

  /** The converse fails: a deadline earlier today is highlighted in the
      list but not counted on the dashboard. */
  lemma SameDayDeadlineOnlyHighlighted(job: Job, readDate: DateReader, midnight: int, now: int)
    requires job.status != Completed
    requires readDate(job.deadline).At? && midnight <= readDate(job.deadline).time < now
    ensures JobManager.DeadlineRed(job, readDate, now)
    ensures !OverdueOnDashboard(job, readDate, midnight)
  {
  }
}

=== FILE: jobimport.dfy ===
/** The delimited-text importer of the job manager and the template it offers
    for download: a header line that is ignored, then one job per line with
    at least five comma- or semicolon-separated columns. */
module JobImport {
  import opened Seqs
  import opened Text
  import opened Jobs
  import Menu

  /** The category whose records (and template) carry an activation date. */
  predicate IsProductionMaster(category: string) {
    category == Menu.ProductionMasterData
  }

  /** What the importer takes from its surroundings: the bucket selected in
      the navigation, and today's date as ISO text (the fallback date). */
  datatype ImportContext = ImportContext(bucket: Bucket, today: string)

  /** `value || fallback` for an optional text: `undefined` and `""` are falsy. */
  function OrElse(value: Option<string>, fallback: string): string {
    if value.Some? && value.value != "" then value.value else fallback
  }

  /** `cols[k]?.trim()`. */
  function Column(cols: seq<string>, k: nat): Option<string> {
    if k < |cols| then Some(Trim(cols[k])) else None
  }

  /** The status validation of the importer: the three accepted literals are
      kept, anything else (blank included) becomes Pending. */
  function ParseStatus(raw: string): (s: Status)
    ensures s != Pending ==> StatusText(s) == raw
    ensures s == Pending <==> raw != "In Progress" && raw != "Completed" && raw != "Overdue"
  {
    if raw == "In Progress" then InProgress
    else if raw == "Completed" then Completed
    else if raw == "Overdue" then Overdue
    else Pending
  }

  /** Every status survives being written out and read back. */
  lemma ParseStatusText(s: Status)
    ensures ParseStatus(StatusText(s)) == s
  {
  }

  /** The record one accepted line becomes. */
  function RecordFromColumns(cols: seq<string>, ctx: ImportContext, id: string): (j: Job)
    ensures j.id == id && j.BucketOf() == ctx.bucket
    ensures j.branchDept != "" && j.jobType != ""
    ensures ctx.today != "" ==> j.dateInput != "" && j.deadline != ""
    ensures j.activationDate.Some? <==> IsProductionMaster(ctx.bucket.category) && |cols| > 5
  {
    Job(
      id,
      ctx.bucket.category,
      ctx.bucket.subCategory,
      OrElse(Column(cols, 0), ctx.today),
      OrElse(Column(cols, 1), "Unknown"),
      OrElse(Column(cols, 2), "Imported Job"),
      ParseStatus(OrElse(Column(cols, 3), "")),
      OrElse(Column(cols, 4), ctx.today),
      if IsProductionMaster(ctx.bucket.category) then Column(cols, 5) else None)
  }

  /** `!line.trim()`: the line trims to nothing (see the contract of `Trim`). */
  predicate Blank(line: string) {
    AllSpace(line)
  }

  /** A data line the importer turns into a record: not blank, and at least
      five columns. */
  predicate Qualifies(line: string) {
    !Blank(line) && |SplitColumns(line)| >= 5
  }

  /** A line has five columns exactly when it holds four separators, and
      such a line is never blank; so the blank check never rejects a line
      the column check would accept. */
  lemma QualifiesIffFourSeparators(line: string)
    ensures Qualifies(line) <==> DelimiterCount(line) >= 4
  {
    ColumnCount(line);
    if DelimiterCount(line) >= 4 {
      DelimiterLineNotBlank(line);
    }
  }

  /** The loop over the data lines. `make(line, n)` is the record an accepted
      line becomes when it takes the `n`-th fresh id; the `k`-th record
      produced takes the `next + k`-th. */
  function ImportRows(lines: seq<string>, make: (string, nat) -> Job, next: nat): (r: seq<Job>)
    ensures |r| == |Filter(lines, Qualifies)|
    decreases |lines|
  {
    if |lines| == 0 then []
    else if Blank(lines[0]) then ImportRows(lines[1..], make, next)
    else
      var cols := SplitColumns(lines[0]);
      if |cols| >= 5 then [make(lines[0], next)] + ImportRows(lines[1..], make, next + 1)
      else ImportRows(lines[1..], make, next)
  }

  /** The record an accepted line becomes. */
  function LineRecord(line: string, ctx: ImportContext, id: string): Job {
    RecordFromColumns(SplitColumns(line), ctx, id)
  }

  /** The loop produces, in order, one record for each accepted line, the
      `k`-th accepted line taking the `next + k`-th id. */
  lemma {:induction false} ImportRowsAreAcceptedLines(lines: seq<string>, make: (string, nat) -> Job,
                                                      next: nat, k: nat)
    requires k < |ImportRows(lines, make, next)|
    ensures var kept := Filter(lines, Qualifies);
            k < |kept| && Qualifies(kept[k]) &&
            ImportRows(lines, make, next)[k] == make(kept[k], next + k)
    decreases |lines|
  {
    var kept := Filter(lines, Qualifies);
    var r := ImportRows(lines, make, next);
    if Qualifies(lines[0]) {
      var rest := ImportRows(lines[1..], make, next + 1);
      assert r == [make(lines[0], next)] + rest;
      assert kept == [lines[0]] + Filter(lines[1..], Qualifies);
      if k > 0 {
        ImportRowsAreAcceptedLines(lines[1..], make, next + 1, k - 1);
        assert next + 1 + (k - 1) == next + k;
      }
    } else {
      assert kept == Filter(lines[1..], Qualifies);
      assert r == ImportRows(lines[1..], make, next);
      ImportRowsAreAcceptedLines(lines[1..], make, next, k);
    }
  }

  /** The record builder of one upload: the line's record under the `n`-th fresh id. */
  function Maker(ctx: ImportContext, ids: nat -> string): (string, nat) -> Job {
    (line: string, n: nat) => LineRecord(line, ctx, ids(n))
  }

  /** Every line after the first. */
  function DataLines(text: string): seq<string> {
    SplitLines(text)[1..]
  }

  /** The records parsed from an uploaded text, in line order. */
  function ParseImport(text: string, ctx: ImportContext, ids: nat -> string): (r: seq<Job>)
    ensures |r| == |Filter(DataLines(text), Qualifies)| <= |SplitLines(text)| - 1
  {
    ImportRows(DataLines(text), Maker(ctx, ids), 0)
  }

  /** What the upload handler reports. */
  datatype ImportOutcome = Imported(batch: seq<Job>) | Rejected

  /** The upload handler: a non-empty batch is handed over, an empty one is
      reported as a format mismatch. */
  function ImportFile(text: string, ctx: ImportContext, ids: nat -> string): (o: ImportOutcome)
    ensures o.Imported? ==> |o.batch| > 0 && o.batch == ParseImport(text, ctx, ids)
    ensures o.Rejected? ==> ParseImport(text, ctx, ids) == []
  {
    var batch := ParseImport(text, ctx, ids);
    if |batch| > 0 then Imported(batch) else Rejected
  }

  // ---------------------------------------------------------------- properties

  predicate HasFourSeparators(line: string) {
    DelimiterCount(line) >= 4
  }

  /** The loop under the importer's record maker: the `k`-th record is the
      record of the `k`-th accepted line under the `k`-th fresh id. */
  lemma MadeRecord(lines: seq<string>, ctx: ImportContext, ids: nat -> string, k: nat)
    requires k < |ImportRows(lines, Maker(ctx, ids), 0)|
    ensures var kept := Filter(lines, Qualifies);
            k < |kept| && Qualifies(kept[k]) &&
            ImportRows(lines, Maker(ctx, ids), 0)[k] == LineRecord(kept[k], ctx, ids(k))
  {
    var make := Maker(ctx, ids);
    ImportRowsAreAcceptedLines(lines, make, 0, k);
    var kept := Filter(lines, Qualifies);
    assert make(kept[k], 0 + k) == LineRecord(kept[k], ctx, ids(k));
  }

  /** The `k`-th record of an import is the record of the `k`-th accepted line. */
  lemma ImportedRecord(text: string, ctx: ImportContext, ids: nat -> string, k: nat)
    requires k < |ParseImport(text, ctx, ids)|
    ensures var kept := Filter(DataLines(text), Qualifies);
            k < |kept| && Qualifies(kept[k]) &&
            ParseImport(text, ctx, ids)[k] == LineRecord(kept[k], ctx, ids(k))
  {
    MadeRecord(DataLines(text), ctx, ids, k);
  }

  /** The import yields one record per data line with at least four
      separators, in line order, the `k`-th taking the `k`-th fresh id. */
  lemma ImportLines(text: string, ctx: ImportContext, ids: nat -> string)
    ensures var r := ParseImport(text, ctx, ids);
            var kept := Filter(DataLines(text), HasFourSeparators);
            |r| == |kept| &&
            forall k :: 0 <= k < |r| ==> r[k] == LineRecord(kept[k], ctx, ids(k))
  {
    var lines := DataLines(text);
    var r := ParseImport(text, ctx, ids);
    forall i | 0 <= i < |lines|
      ensures Qualifies(lines[i]) == HasFourSeparators(lines[i])
    {
      QualifiesIffFourSeparators(lines[i]);
    }
    FilterCongruent(lines, Qualifies, HasFourSeparators);
    forall k | 0 <= k < |r|
      ensures r[k] == LineRecord(Filter(lines, HasFourSeparators)[k], ctx, ids(k))
    {
      ImportedRecord(text, ctx, ids, k);
    }
  }

  /** The upload is rejected exactly when no data line has five columns. */
  lemma RejectedIffNoFiveColumnLine(text: string, ctx: ImportContext, ids: nat -> string)
    ensures ImportFile(text, ctx, ids).Rejected? <==>
            forall i :: 0 <= i < |DataLines(text)| ==> |SplitColumns(DataLines(text)[i])| < 5
  {
    var lines := DataLines(text);
    ImportLines(text, ctx, ids);
    FilterEmptyIff(lines, HasFourSeparators);
    forall i | 0 <= i < |lines|
      ensures |SplitColumns(lines[i])| < 5 <==> !HasFourSeparators(lines[i])
    {
      ColumnCount(lines[i]);
    }
  }

  /** The fallbacks of the importer for one accepted line: an empty trimmed
      column becomes today, "Unknown", "Imported Job" or today; the status
      is the validated trimmed column; the bucket is the selected one; the
      activation date is the sixth column, under production master data only. */
  lemma LineRecordFields(line: string, ctx: ImportContext, id: string)
    requires Qualifies(line)
    ensures var j := LineRecord(line, ctx, id);
            var cols := SplitColumns(line);
            && |cols| >= 5
            && j.id == id
            && j.category == ctx.bucket.category && j.subCategory == ctx.bucket.subCategory
            && j.dateInput == (if Trim(cols[0]) == "" then ctx.today else Trim(cols[0]))
            && j.branchDept == (if Trim(cols[1]) == "" then "Unknown" else Trim(cols[1]))
            && j.jobType == (if Trim(cols[2]) == "" then "Imported Job" else Trim(cols[2]))
            && j.status == ParseStatus(Trim(cols[3]))
            && j.deadline == (if Trim(cols[4]) == "" then ctx.today else Trim(cols[4]))
            && j.activationDate == (if IsProductionMaster(ctx.bucket.category) && |cols| > 5
                                    then Some(Trim(cols[5])) else None)
  {
  }

  /** An imported record carries an activation date only under the production
      master data category. */
  lemma ImportedActivationDates(text: string, ctx: ImportContext, ids: nat -> string)
    ensures forall k :: 0 <= k < |ParseImport(text, ctx, ids)| ==>
              var j := ParseImport(text, ctx, ids)[k];
              j.activationDate.Some? ==> IsProductionMaster(j.category)
  {
    forall k | 0 <= k < |ParseImport(text, ctx, ids)|
      ensures var j := ParseImport(text, ctx, ids)[k];
              j.activationDate.Some? ==> IsProductionMaster(j.category)
    {
      ImportedRecord(text, ctx, ids, k);
    }
  }

  /** Fresh ids that never repeat give an import batch without duplicate ids. */
  lemma ImportedIdsDistinct(text: string, ctx: ImportContext, ids: nat -> string)
    requires forall a: nat, b: nat :: a != b ==> ids(a) != ids(b)
    ensures UniqueIds(ParseImport(text, ctx, ids))
  {
    var r := ParseImport(text, ctx, ids);
    forall k | 0 <= k < |r|
      ensures r[k].id == ids(k)
    {
      ImportedRecord(text, ctx, ids, k);
    }
  }

  /** The header line is ignored: whatever it says, the batch is the same. */
  lemma HeaderIgnored(h1: string, h2: string, body: string, ctx: ImportContext, ids: nat -> string)
    requires '\n' !in h1
    requires '\n' !in h2
    ensures ParseImport(h1 + ['\n'] + body, ctx, ids) == ParseImport(h2 + ['\n'] + body, ctx, ids)
  {
    SplitAfterFirstLine(h1, body);
    SplitAfterFirstLine(h2, body);
  }

  /** The first line is skipped whatever it holds, even when it is blank: a
      text that starts with a line feed has every following line, header
      included, read as a data line. */
  lemma LeadingLineFeedReadsHeader(text: string, ctx: ImportContext, ids: nat -> string)
    ensures ParseImport(['\n'] + text, ctx, ids) == ImportRows(SplitLines(text), Maker(ctx, ids), 0)
  {
    assert [] + ['\n'] + text == ['\n'] + text;
    SplitAfterFirstLine([], text);
  }

  /** Blank data lines are skipped without consuming an id. */
  lemma {:induction false} BlankLineSkipped(a: seq<string>, blank: string, b: seq<string>,
                                            make: (string, nat) -> Job, next: nat)
    requires Blank(blank)
    ensures ImportRows(a + [blank] + b, make, next) == ImportRows(a + b, make, next)
    decreases |a|
  {
    if |a| == 0 {
      assert a + [blank] + b == [blank] + b;
      assert ([blank] + b)[1..] == b;
      assert a + b == b;
    } else {
      assert (a + [blank] + b)[1..] == a[1..] + [blank] + b;
      assert (a + b)[1..] == a[1..] + b;
      BlankLineSkipped(a[1..], blank, b, make, next);
      if Qualifies(a[0]) {
        BlankLineSkipped(a[1..], blank, b, make, next + 1);
      }
    }
  }

  // ---------------------------------------------------------------- template

  /** The column names of the template header. */
  const StandardHeader: seq<string> :=
    ["Tanggal Input (YYYY-MM-DD)", "Cabang/Dept", "Jenis Pekerjaan", "Status", "Dateline (YYYY-MM-DD)"]
  const ProductionHeader: seq<string> := StandardHeader + ["Tanggal Aktifasi (YYYY-MM-DD)"]

  function HeaderFields(category: string): seq<string> {
    if IsProductionMaster(category) then ProductionHeader else StandardHeader
  }

  /** The values of the example row; `nextWeek` is the date seven days on. */
  function ExampleFields(category: string, today: string, nextWeek: string): seq<string> {
    if IsProductionMaster(category) then [today, "Jakarta", "Input Master Vendor", "Pending", nextWeek, today]
    else [today, "Bandung", "Update Routing", "In Progress", nextWeek]
  }

  function TemplateHeader(category: string): string {
    Join(HeaderFields(category), ',')
  }

  function ExampleRow(category: string, today: string, nextWeek: string): string {
    Join(ExampleFields(category, today, nextWeek), ',')
  }

  /** The text of the downloaded template: header, line feed, example row.
      Its first line is the header and its only data line the example row. */
  function TemplateText(category: string, today: string, nextWeek: string): (r: string)
    requires IsoDateText(today) && IsoDateText(nextWeek)
    ensures SplitLines(r)[0] == TemplateHeader(category)
    ensures DataLines(r) == [ExampleRow(category, today, nextWeek)]
  {
    var header := TemplateHeader(category);
    var row := ExampleRow(category, today, nextWeek);
    TemplateFieldsPlain(category, today, nextWeek);
    AllPlainAvoid(HeaderFields(category));
    AllPlainAvoid(ExampleFields(category, today, nextWeek));
    JoinAvoids(HeaderFields(category), ',', '\n');
    JoinAvoids(HeaderFields(category), ',', '\r');
    JoinAvoids(ExampleFields(category, today, nextWeek), ',', '\n');
    assert |header| > 0 ==> header[|header| - 1] in header;
    SplitLinesCons(header, row);
    SplitLinesSingle(row);
    header + ['\n'] + row
  }

  /** The shape of `toISOString().split('T')[0]`: digits and hyphens, not empty. */
  predicate IsoDateText(s: string) {
    |s| > 0 && forall i :: 0 <= i < |s| ==> ('0' <= s[i] <= '9' || s[i] == '-')
  }

  /** A character that is neither a separator nor part of a line break. */
  predicate PlainChar(c: char) {
    !IsDelimiter(c) && c != '\n' && c != '\r'
  }

  /** A text with no separator, line feed or carriage return. */
  predicate Plain(s: string) {
    forall i :: 0 <= i < |s| ==> PlainChar(s[i])
  }

  lemma PlainAvoids(s: string)
    requires Plain(s)
    ensures NoDelimiter(s) && '\n' !in s && '\r' !in s
  {
    assert forall c :: c in s ==> PlainChar(c);
  }

  lemma AllPlainAvoid(fields: seq<string>)
    requires forall i :: 0 <= i < |fields| ==> Plain(fields[i])
    ensures forall i :: 0 <= i < |fields| ==>
              NoDelimiter(fields[i]) && '\n' !in fields[i] && '\r' !in fields[i]
  {
    forall i | 0 <= i < |fields|
      ensures NoDelimiter(fields[i]) && '\n' !in fields[i] && '\r' !in fields[i]
    {
      PlainAvoids(fields[i]);
    }
  }

  lemma IsoDateIsPlain(s: string)
    requires IsoDateText(s)
    ensures Plain(s) && Trim(s) == s
  {
    assert s[0] == s[0];
    assert s[|s| - 1] == s[|s| - 1];
  }

  lemma StandardHeaderPlain()
    ensures forall i :: 0 <= i < |StandardHeader| ==> Plain(StandardHeader[i])
  {
    assert Plain(StandardHeader[0]);
    assert Plain(StandardHeader[1]);
    assert Plain(StandardHeader[2]);
    assert Plain(StandardHeader[3]);
    assert Plain(StandardHeader[4]);
  }

  lemma HeaderFieldsPlain(category: string)
    ensures forall i :: 0 <= i < |HeaderFields(category)| ==> Plain(HeaderFields(category)[i])
  {
    StandardHeaderPlain();
    assert Plain(ProductionHeader[5]);
    assert forall i :: 0 <= i < 5 ==> ProductionHeader[i] == StandardHeader[i];
  }

  lemma ExampleFieldsPlain(category: string, today: string, nextWeek: string)
    requires Plain(today) && Plain(nextWeek)
    ensures forall i :: 0 <= i < |ExampleFields(category, today, nextWeek)| ==>
              Plain(ExampleFields(category, today, nextWeek)[i])
  {
    if IsProductionMaster(category) {
      assert Plain("Jakarta") && Plain("Input Master Vendor") && Plain("Pending");
    } else {
      assert Plain("Bandung") && Plain("Update Routing") && Plain("In Progress");
    }
  }

  lemma TemplateFieldsPlain(category: string, today: string, nextWeek: string)
    requires IsoDateText(today) && IsoDateText(nextWeek)
    ensures forall i :: 0 <= i < |HeaderFields(category)| ==> Plain(HeaderFields(category)[i])
    ensures forall i :: 0 <= i < |ExampleFields(category, today, nextWeek)| ==>
              Plain(ExampleFields(category, today, nextWeek)[i])
  {
    IsoDateIsPlain(today);
    IsoDateIsPlain(nextWeek);
    HeaderFieldsPlain(category);
    ExampleFieldsPlain(category, today, nextWeek);
  }

  /** The header and the example row each have six columns for the
      production master data category and five for any other. */
  lemma TemplateColumns(category: string, today: string, nextWeek: string)
    requires IsoDateText(today) && IsoDateText(nextWeek)
    ensures |SplitColumns(TemplateHeader(category))| == if IsProductionMaster(category) then 6 else 5
    ensures |SplitColumns(ExampleRow(category, today, nextWeek))| == if IsProductionMaster(category) then 6 else 5
  {
    TemplateFieldsPlain(category, today, nextWeek);
    AllPlainAvoid(HeaderFields(category));
    AllPlainAvoid(ExampleFields(category, today, nextWeek));
    SplitJoinColumns(HeaderFields(category));
    SplitJoinColumns(ExampleFields(category, today, nextWeek));
  }

  /** The example row is accepted, and splits back into its fields. */
  lemma ExampleRowQualifies(category: string, today: string, nextWeek: string)
    requires IsoDateText(today) && IsoDateText(nextWeek)
    ensures var row := ExampleRow(category, today, nextWeek);
            Qualifies(row) && SplitColumns(row) == ExampleFields(category, today, nextWeek)
  {
    var fields := ExampleFields(category, today, nextWeek);
    var row := ExampleRow(category, today, nextWeek);
    TemplateFieldsPlain(category, today, nextWeek);
    AllPlainAvoid(fields);
    SplitJoinColumns(fields);
    JoinStartsWithFirst(fields, ',');
    assert row[0] == today[0];
    assert !IsSpace(row[0]);
  }

  /** Every example field is already trimmed. */
  lemma ExampleFieldsTrimmed(category: string, today: string, nextWeek: string)
    requires IsoDateText(today) && IsoDateText(nextWeek)
    ensures var fields := ExampleFields(category, today, nextWeek);
            forall i :: 0 <= i < |fields| ==> Trim(fields[i]) == fields[i]
  {
    IsoDateIsPlain(today);
    IsoDateIsPlain(nextWeek);
    var fields := ExampleFields(category, today, nextWeek);
    forall i | 0 <= i < |fields|
      ensures Trim(fields[i]) == fields[i]
    {
      var w := fields[i];
      assert |w| > 0 && !IsSpace(w[0]) && !IsSpace(w[|w| - 1]);
    }
  }

  /** Importing the downloaded template yields exactly its example record:
      Pending under production master data, In Progress elsewhere. */
  lemma TemplateReimport(bucket: Bucket, today: string, nextWeek: string, ids: nat -> string)
    requires IsoDateText(today) && IsoDateText(nextWeek)
    ensures var r := ParseImport(TemplateText(bucket.category, today, nextWeek), ImportContext(bucket, today), ids);
            var pm := IsProductionMaster(bucket.category);
            && |r| == 1
            && r[0].id == ids(0) && r[0].BucketOf() == bucket
            && r[0].dateInput == today && r[0].deadline == nextWeek
            && r[0].branchDept == (if pm then "Jakarta" else "Bandung")
            && r[0].jobType == (if pm then "Input Master Vendor" else "Update Routing")
            && r[0].status == (if pm then Pending else InProgress)
            && r[0].activationDate == (if pm then Some(today) else None)
  {
    var category := bucket.category;
    var ctx := ImportContext(bucket, today);
    var row := ExampleRow(category, today, nextWeek);
    var fields := ExampleFields(category, today, nextWeek);
    ExampleRowQualifies(category, today, nextWeek);
    ExampleFieldsTrimmed(category, today, nextWeek);
    var r := ParseImport(TemplateText(category, today, nextWeek), ctx, ids);
    assert Filter([row], Qualifies) == [row];
    ImportedRecord(TemplateText(category, today, nextWeek), ctx, ids, 0);
    assert r[0] == RecordFromColumns(fields, ctx, ids(0));
    IsoDateIsPlain(today);
    assert fields[0] == today && fields[4] == nextWeek;
    if IsProductionMaster(category) {
      assert fields[3] == "Pending" && fields[5] == today;
    } else {
      assert fields[3] == "In Progress";
    }
  }
}

=== FILE: jobmanager.dfy ===
/** The list view of one menu bucket: the manual add form, the search over
    the bucket's records, and the deadline highlighting of each row. */
module JobManager {
  import opened Seqs
  import opened Text
  import opened Jobs
  import JobImport

  // ---------------------------------------------------------------- add form

  /** The form state, `Partial<Job>`: a field is `None` until it is set. */
  datatype Form = Form(
    dateInput: Option<string>,
    branchDept: Option<string>,
    jobType: Option<string>,
    status: Option<Status>,
    deadline: Option<string>,
    activationDate: Option<string>)

  /** The form as it opens: status Pending, input date today, every other
      field unset. The reset after a submission sets the three text fields
      to the empty text instead, which `Submit` treats like an unset one. */
  function FreshForm(today: string): Form {
    Form(Some(today), None, None, Some(Pending), None, None)
  }

  /** The record a submitted form becomes, under the bucket of the view and
      a fresh id. A falsy date falls back to today, a falsy text to the
      empty text, a missing status to Pending; the activation date is kept
      only under production master data. */
  function Submit(form: Form, bucket: Bucket, today: string, id: string): (j: Job)
    ensures j.id == id && j.BucketOf() == bucket
    ensures form.dateInput.Some? && form.dateInput.value != "" ==> j.dateInput == form.dateInput.value
    ensures form.dateInput.None? || form.dateInput.value == "" ==> j.dateInput == today
    ensures form.branchDept.Some? ==> j.branchDept == form.branchDept.value
    ensures form.branchDept.None? ==> j.branchDept == ""
    ensures form.jobType.Some? ==> j.jobType == form.jobType.value
    ensures form.jobType.None? ==> j.jobType == ""
    ensures form.deadline.Some? ==> j.deadline == form.deadline.value
    ensures form.deadline.None? ==> j.deadline == ""
    ensures form.status.Some? ==> j.status == form.status.value
    ensures form.status.None? ==> j.status == Pending
    ensures j.activationDate.Some? ==> JobImport.IsProductionMaster(bucket.category)
  {
    Job(
      id,
      bucket.category,
      bucket.subCategory,
      JobImport.OrElse(form.dateInput, today),
      JobImport.OrElse(form.branchDept, ""),
      JobImport.OrElse(form.jobType, ""),
      if form.status.Some? then form.status.value else Pending,
      JobImport.OrElse(form.deadline, ""),
      if JobImport.IsProductionMaster(bucket.category) then form.activationDate else None)
  }

  /** Submitting the form untouched gives a Pending record dated today with
      blank texts and no activation date. */
  lemma SubmitFreshForm(bucket: Bucket, today: string, id: string)
    ensures var j := Submit(FreshForm(today), bucket, today, id);
            && j.dateInput == today && j.status == Pending
            && j.branchDept == "" && j.jobType == "" && j.deadline == ""
            && j.activationDate == None
  {
  }

  /** Under production master data the typed activation date is kept as is;
      under any other category it is dropped, whatever was typed. */
  lemma SubmitActivationDate(form: Form, bucket: Bucket, today: string, id: string)
    ensures JobImport.IsProductionMaster(bucket.category) ==>
              Submit(form, bucket, today, id).activationDate == form.activationDate
    ensures !JobImport.IsProductionMaster(bucket.category) ==>
              Submit(form, bucket, today, id).activationDate == None
  {
  }

  /** The status drop-downs offer Pending, In Progress and Completed; only
      the importer can store Overdue. */
  predicate Selectable(s: Status) {
    s != Overdue
  }

  lemma SubmitNeverOverdue(form: Form, bucket: Bucket, today: string, id: string)
    requires form.status.Some? ==> Selectable(form.status.value)
    ensures Selectable(Submit(form, bucket, today, id).status)
  {
  }

  // ---------------------------------------------------------------- search

  /** The search test: the term, lower-cased, occurs in the lower-cased
      branch or job type. */
  predicate MatchesTerm(job: Job, term: string) {
    Includes(Lower(job.branchDept), Lower(term)) || Includes(Lower(job.jobType), Lower(term))
  }

  /** A record the list view shows: in the selected bucket (both halves) and
      matching the search term. */
  predicate Visible(job: Job, bucket: Bucket, term: string) {
    job.category == bucket.category && job.subCategory == bucket.subCategory && MatchesTerm(job, term)
  }

  function InBucket(bucket: Bucket): Job -> bool {
    (j: Job) => j.category == bucket.category && j.subCategory == bucket.subCategory
  }

  function VisibleIn(bucket: Bucket, term: string): Job -> bool {
    (j: Job) => Visible(j, bucket, term)
  }

  /** `filteredJobs`. */
  function FilterJobs(jobs: seq<Job>, bucket: Bucket, term: string): (r: seq<Job>)
    ensures |r| <= |jobs|
    ensures forall i :: 0 <= i < |r| ==> r[i].BucketOf() == bucket && MatchesTerm(r[i], term)
  {
    var r := Filter(jobs, VisibleIn(bucket, term));
    assert forall i :: 0 <= i < |r| ==> VisibleIn(bucket, term)(r[i]);
    r
  }

  /** The list view shows a record exactly when it is stored, belongs to the
      selected bucket and matches the term; and it keeps the stored order. */
  lemma FilterJobsExactly(jobs: seq<Job>, bucket: Bucket, term: string, x: Job)
    ensures x in FilterJobs(jobs, bucket, term) <==> x in jobs && x.BucketOf() == bucket && MatchesTerm(x, term)
    ensures IsSubsequence(FilterJobs(jobs, bucket, term), jobs)
    ensures multiset(FilterJobs(jobs, bucket, term))[x]
            == if x.BucketOf() == bucket && MatchesTerm(x, term) then multiset(jobs)[x] else 0
  {
    FilterMembership(jobs, VisibleIn(bucket, term), x);
    FilterIsSubsequence(jobs, VisibleIn(bucket, term));
    FilterMultiplicity(jobs, VisibleIn(bucket, term), x);
  }

  /** With an empty search box the view lists every record of the bucket. */
  lemma EmptyTermKeepsBucket(jobs: seq<Job>, bucket: Bucket)
    ensures FilterJobs(jobs, bucket, "") == Filter(jobs, InBucket(bucket))
  {
    forall i | 0 <= i < |jobs|
      ensures VisibleIn(bucket, "")(jobs[i]) == InBucket(bucket)(jobs[i])
    {
      IncludesEmpty(Lower(jobs[i].branchDept));
    }
    FilterCongruent(jobs, VisibleIn(bucket, ""), InBucket(bucket));
  }

  /** The search ignores the case of the term. */
  lemma SearchIgnoresTermCase(jobs: seq<Job>, bucket: Bucket, term: string)
    ensures FilterJobs(jobs, bucket, Lower(term)) == FilterJobs(jobs, bucket, term)
  {
    LowerIdempotent(term);
    assert forall j :: VisibleIn(bucket, Lower(term))(j) == VisibleIn(bucket, term)(j);
    FilterCongruent(jobs, VisibleIn(bucket, Lower(term)), VisibleIn(bucket, term));
  }

  /** A sub-menu name shared by two categories does not mix their records. */
  lemma SharedSubmenuSeparated(jobs: seq<Job>, term: string, x: Job)
    requires x in jobs && x.category == "Penyesuaian" && x.subCategory == "Routing"
    ensures x !in FilterJobs(jobs, Bucket("Problem", "Routing"), term)
  {
    FilterJobsExactly(jobs, Bucket("Problem", "Routing"), term, x);
  }

  // ---------------------------------------------------------------- row colours

  /** `new Date() > new Date(deadline)`: an invalid deadline is never past. */
  predicate PastDeadline(now: int, deadline: Moment) {
    deadline.At? && now > deadline.time
  }

  /** The colour classes of the status badge. */
  datatype Tone = Alert | Done | Active | Neutral

  /** `getStatusColor`: red for a past deadline of an unfinished record,
      then green, blue or grey by status. */
  function StatusTone(status: Status, deadline: Moment, now: int): (t: Tone)
    ensures t == Alert <==> PastDeadline(now, deadline) && status != Completed
    ensures t == Done <==> status == Completed
    ensures t == Active <==> status == InProgress && !PastDeadline(now, deadline)
    ensures t == Neutral <==> (status == Pending || status == Overdue) && !PastDeadline(now, deadline)
  {
    if PastDeadline(now, deadline) && status != Completed then Alert
    else match status
      case Completed => Done
      case InProgress => Active
      case _ => Neutral
  }

  /** The deadline cell of a row is printed in red. */
  predicate DeadlineRed(job: Job, readDate: DateReader, now: int) {
    PastDeadline(now, readDate(job.deadline)) && job.status != Completed
  }

  /** The badge is red exactly when the deadline cell is. */
  lemma BadgeAgreesWithDeadlineCell(job: Job, readDate: DateReader, now: int)
    ensures StatusTone(job.status, readDate(job.deadline), now) == Alert <==> DeadlineRed(job, readDate, now)
  {
  }

  /** A stored `Overdue` status whose deadline has not passed is shown grey,
      like Pending: the colour follows the deadline, not the literal. */
  lemma OverdueLiteralNotRed(deadline: Moment, now: int)
    requires !PastDeadline(now, deadline)
    ensures StatusTone(Overdue, deadline, now) == Neutral
  {
  }
}

=== FILE: jobs.dfy ===
/** The job record shared by every view, and the vocabulary around it. */
module Jobs {
  import opened Seqs

  /** The status literals a record may carry. `Overdue` is one of them only
      because the importer accepts it; no other path stores it, and the
      dashboard derives overdueness from the deadline instead. */
  datatype Status = Pending | InProgress | Completed | Overdue

  /** The literal the original program stores for each status. */
  function StatusText(s: Status): string {
    match s
    case Pending => "Pending"
    case InProgress => "In Progress"
    case Completed => "Completed"
    case Overdue => "Overdue"
  }

  /** The menu bucket a record belongs to: a (category, sub-category) pair. */
  datatype Bucket = Bucket(category: string, subCategory: string)

  /** One tracked job. Dates are the ISO text the form or the import produced. */
  datatype Job = Job(
    id: string,
    category: string,
    subCategory: string,
    dateInput: string,
    branchDept: string,
    jobType: string,
    status: Status,
    deadline: string,
    activationDate: Option<string>)
  {
    function BucketOf(): Bucket {
      Bucket(category, subCategory)
    }
  }

  /** `Partial<Job>`: a field is `Some` when the update object carries that key. */
  datatype Patch = Patch(
    id: Option<string>,
    category: Option<string>,
    subCategory: Option<string>,
    dateInput: Option<string>,
    branchDept: Option<string>,
    jobType: Option<string>,
    status: Option<Status>,
    deadline: Option<string>,
    activationDate: Option<string>)

  /** The update the status drop-down of the list view sends: `{ status }`. */
  function StatusPatch(s: Status): Patch {
    Patch(None, None, None, None, None, None, Some(s), None, None)
  }

  /** What `new Date(text)` yields for a date text, on an abstract time line:
      an instant, or an invalid date (every comparison with which is false). */
  datatype Moment = Invalid | At(time: int)

  /** Reading a date text as a moment: JavaScript date parsing, left abstract. */
  type DateReader = string -> Moment

  function Ids(jobs: seq<Job>): (r: seq<string>)
    ensures |r| == |jobs|
    ensures forall i :: 0 <= i < |jobs| ==> r[i] == jobs[i].id
  {
    if |jobs| == 0 then [] else [jobs[0].id] + Ids(jobs[1..])
  }

  /** No two records of the list share an id. */
  predicate UniqueIds(jobs: seq<Job>) {
    forall i, j :: 0 <= i < j < |jobs| ==> jobs[i].id != jobs[j].id
  }
}

=== FILE: menu.dfy ===
/** The static navigation table: each category and its ordered sub-menus. */
module Menu {
  import opened Seqs

  datatype MenuEntry = MenuEntry(key: string, name: string, submenus: seq<string>)

  /** The one category whose records carry an activation date. */
  const ProductionMasterData: string := "Produksi Master Data"

  /** `MENU_STRUCTURE`, in key order. */
  const MenuStructure: seq<MenuEntry> := [
    MenuEntry("Penyesuaian", "Penyesuaian", ["Harga Jual", "Routing", "Costing"]),
    MenuEntry("Request Data", "Request Data", ["KCU", "Nasional", "Project"]),
    MenuEntry("Problem", "Problem", ["Tarif", "SLA", "Biaya", "Routing"]),
    MenuEntry(ProductionMasterData, ProductionMasterData, ["Cabang", "Nasional"])
  ]

  function Keys(menu: seq<MenuEntry>): (r: seq<string>)
    ensures |r| == |menu|
    ensures forall i :: 0 <= i < |menu| ==> r[i] == menu[i].key
  {
    if |menu| == 0 then [] else [menu[0].key] + Keys(menu[1..])
  }

  predicate NoDuplicates(s: seq<string>) {
    forall i, j :: 0 <= i < j < |s| ==> s[i] != s[j]
  }

  /** `MENU_STRUCTURE[category]?.submenus`. */
  function SubmenusOf(category: string): (r: Option<seq<string>>)
    ensures r.Some? <==> category in Keys(MenuStructure)
    ensures forall i :: 0 <= i < |MenuStructure| && MenuStructure[i].key == category ==>
              r == Some(MenuStructure[i].submenus)
  {
    if category == MenuStructure[0].key then Some(MenuStructure[0].submenus)
    else if category == MenuStructure[1].key then Some(MenuStructure[1].submenus)
    else if category == MenuStructure[2].key then Some(MenuStructure[2].submenus)
    else if category == MenuStructure[3].key then Some(MenuStructure[3].submenus)
    else None
  }

  /** A (category, sub-category) pair the sidebar can select. */
  predicate IsMenuPair(category: string, subCategory: string) {
    SubmenusOf(category).Some? && subCategory in SubmenusOf(category).value
  }

  /** There are exactly four categories, with distinct keys, each key equal to its name. */
  lemma MenuCategories()
    ensures |MenuStructure| == 4
    ensures NoDuplicates(Keys(MenuStructure))
    ensures forall i :: 0 <= i < |MenuStructure| ==> MenuStructure[i].key == MenuStructure[i].name
  {
  }

  /** Every sub-menu list is non-empty and lists no name twice. */
  lemma SubmenusWellFormed()
    ensures forall i :: 0 <= i < |MenuStructure| ==>
              |MenuStructure[i].submenus| > 0 && NoDuplicates(MenuStructure[i].submenus)
  {
  }

  /** Sub-menu names are not unique across categories, so a bucket needs both halves. */
  lemma SubmenuNamesShared()
    ensures IsMenuPair("Penyesuaian", "Routing") && IsMenuPair("Problem", "Routing")
    ensures IsMenuPair("Request Data", "Nasional") && IsMenuPair(ProductionMasterData, "Nasional")
  {
  }

  /** The production master data literal is one of the menu keys. */
  lemma ProductionMasterIsCategory()
    ensures ProductionMasterData in Keys(MenuStructure)
    ensures SubmenusOf(ProductionMasterData) == Some(["Cabang", "Nasional"])
  {
    assert Keys(MenuStructure)[3] == ProductionMasterData;
  }
}

=== FILE: seqs.dfy ===
/** Small generic vocabulary shared by the whole model: optional values,
    results, and the order-preserving `filter` that the dashboard, the list
    view, the record store and the importer all use. */
module Seqs {

  /** JavaScript `undefined` / `null` versus a present value. */
  datatype Option<T> = None | Some(value: T)

  /** A computation that either yields a value or stops with an error
      (a thrown exception in the original program). */
  datatype Result<T, E> = Success(value: T) | Failure(error: E)

  /** `s.filter(p)`: the elements of `s` that satisfy `p`, in their original order. */
  function Filter<T>(s: seq<T>, p: T -> bool): (r: seq<T>)
    ensures |r| <= |s|
    ensures forall i :: 0 <= i < |r| ==> p(r[i])
  {
    if |s| == 0 then []
    else if p(s[0]) then [s[0]] + Filter(s[1..], p)
    else Filter(s[1..], p)
  }

  /** `s.filter(p).length`. */
  function Count<T>(s: seq<T>, p: T -> bool): nat
  {
    |Filter(s, p)|
  }

  /** `a` can be obtained from `b` by deleting elements, without reordering. */
  predicate IsSubsequence<T(==)>(a: seq<T>, b: seq<T>)
    decreases |b|
  {
    if |a| == 0 then true
    else if |b| == 0 then false
    else if a[0] == b[0] then IsSubsequence(a[1..], b[1..])
    else IsSubsequence(a, b[1..])
  }

  /** An element is kept exactly when it occurs in `s` and satisfies `p`. */
  lemma {:induction false} FilterMembership<T>(s: seq<T>, p: T -> bool, x: T)
    ensures x in Filter(s, p) <==> x in s && p(x)
  {
    if |s| > 0 {
      FilterMembership(s[1..], p, x);
      assert s == [s[0]] + s[1..];
    }
  }

  /** Filtering keeps the relative order of the kept elements. */
  lemma {:induction false} FilterIsSubsequence<T>(s: seq<T>, p: T -> bool)
    ensures IsSubsequence(Filter(s, p), s)
  {
    if |s| > 0 {
      FilterIsSubsequence(s[1..], p);
    }
  }

  /** A filter that rejects nothing is the identity. */
  lemma {:induction false} FilterKeepsAll<T>(s: seq<T>, p: T -> bool)
    requires forall i :: 0 <= i < |s| ==> p(s[i])
    ensures Filter(s, p) == s
  {
    if |s| > 0 {
      FilterKeepsAll(s[1..], p);
    }
  }

  /** A filter is empty exactly when no element satisfies the predicate. */
  lemma {:induction false} FilterEmptyIff<T>(s: seq<T>, p: T -> bool)
    ensures Filter(s, p) == [] <==> forall i :: 0 <= i < |s| ==> !p(s[i])
  {
    if |s| > 0 {
      FilterEmptyIff(s[1..], p);
      if !p(s[0]) {
        assert forall i :: 1 <= i < |s| ==> s[i] == s[1..][i - 1];
      }
    }
  }

  /** Two predicates that agree on every element of `s` filter it alike. */
  lemma {:induction false} FilterCongruent<T>(s: seq<T>, p: T -> bool, q: T -> bool)
    requires forall i :: 0 <= i < |s| ==> p(s[i]) == q(s[i])
    ensures Filter(s, p) == Filter(s, q)
  {
    if |s| > 0 {
      FilterCongruent(s[1..], p, q);
    }
  }

  /** Filtering keeps every copy of an element that satisfies the predicate
      and drops every copy of one that does not. */
  lemma {:induction false} FilterMultiplicity<T>(s: seq<T>, p: T -> bool, x: T)
    ensures multiset(Filter(s, p))[x] == if p(x) then multiset(s)[x] else 0
  {
    if |s| > 0 {
      FilterMultiplicity(s[1..], p, x);
      assert s == [s[0]] + s[1..];
      assert multiset(s) == multiset{s[0]} + multiset(s[1..]);
      if p(s[0]) {
        assert Filter(s, p) == [s[0]] + Filter(s[1..], p);
      }
    }
  }
}

=== FILE: store.dfy ===
/** The record list held by the application and its browser-storage copy:
    add, bulk add, update by id, confirmed delete, load and persist. */
module Store {
  import opened Seqs
  import opened Jobs

  // ---------------------------------------------------------------- operations

  /** `[job, ...prev]`: a new record goes to the front. */
  function Add(jobs: seq<Job>, job: Job): (r: seq<Job>)
    ensures |r| == |jobs| + 1 && r[0] == job && r[1..] == jobs
  {
    [job] + jobs
  }

  /** `[...newJobs, ...prev]`: an imported batch goes to the front, in file order. */
  function BulkAdd(jobs: seq<Job>, batch: seq<Job>): (r: seq<Job>)
    ensures |r| == |batch| + |jobs|
    ensures forall i :: 0 <= i < |batch| ==> r[i] == batch[i]
    ensures forall i :: 0 <= i < |jobs| ==> r[|batch| + i] == jobs[i]
  {
    batch + jobs
  }

  /** One field of a spread: the patch's value when it carries the key. */
  function Spread<T>(patched: Option<T>, kept: T): (v: T)
    ensures patched.Some? ==> v == patched.value
    ensures patched.None? ==> v == kept
  {
    if patched.Some? then patched.value else kept
  }

  /** `{ ...j, ...updates }`: every field the patch carries replaces the
      record's, the others are kept. */
  function Merge(j: Job, p: Patch): (m: Job)
    ensures p.id.Some? ==> m.id == p.id.value
    ensures p.id.None? ==> m.id == j.id
    ensures p.category.Some? ==> m.category == p.category.value
    ensures p.category.None? ==> m.category == j.category
    ensures p.subCategory.Some? ==> m.subCategory == p.subCategory.value
    ensures p.subCategory.None? ==> m.subCategory == j.subCategory
    ensures p.dateInput.Some? ==> m.dateInput == p.dateInput.value
    ensures p.dateInput.None? ==> m.dateInput == j.dateInput
    ensures p.branchDept.Some? ==> m.branchDept == p.branchDept.value
    ensures p.branchDept.None? ==> m.branchDept == j.branchDept
    ensures p.jobType.Some? ==> m.jobType == p.jobType.value
    ensures p.jobType.None? ==> m.jobType == j.jobType
    ensures p.status.Some? ==> m.status == p.status.value
    ensures p.status.None? ==> m.status == j.status
    ensures p.deadline.Some? ==> m.deadline == p.deadline.value
    ensures p.deadline.None? ==> m.deadline == j.deadline
    ensures p.activationDate.Some? ==> m.activationDate == p.activationDate
    ensures p.activationDate.None? ==> m.activationDate == j.activationDate
  {
    Job(
      Spread(p.id, j.id),
      Spread(p.category, j.category),
      Spread(p.subCategory, j.subCategory),
      Spread(p.dateInput, j.dateInput),
      Spread(p.branchDept, j.branchDept),
      Spread(p.jobType, j.jobType),
      Spread(p.status, j.status),
      Spread(p.deadline, j.deadline),
      if p.activationDate.Some? then p.activationDate else j.activationDate)
  }

  /** The patch that carries no key. */
  const EmptyPatch: Patch := Patch(None, None, None, None, None, None, None, None, None)

  /** Spreading an empty patch changes nothing. */
  lemma MergeEmpty(j: Job)
    ensures Merge(j, EmptyPatch) == j
  {
  }

  /** Spreading the same patch twice is spreading it once. */
  lemma MergeIdempotent(j: Job, p: Patch)
    ensures Merge(Merge(j, p), p) == Merge(j, p)
  {
  }

  /** The status drop-down's patch changes the status and nothing else. */
  lemma StatusPatchOnlyStatus(j: Job, s: Status)
    ensures Merge(j, StatusPatch(s)) == j.(status := s)
  {
  }

  /** `prev.map(j => j.id === id ? { ...j, ...updates } : j)`. */
  function Update(jobs: seq<Job>, id: string, p: Patch): (r: seq<Job>)
    ensures |r| == |jobs|
    ensures forall i :: 0 <= i < |jobs| && jobs[i].id != id ==> r[i] == jobs[i]
    ensures forall i :: 0 <= i < |jobs| && jobs[i].id == id ==> r[i] == Merge(jobs[i], p)
  {
    if |jobs| == 0 then []
    else [if jobs[0].id == id then Merge(jobs[0], p) else jobs[0]] + Update(jobs[1..], id, p)
  }

  /** Updating an id no record has leaves the list as it was. */
  lemma UpdateAbsentIsNoOp(jobs: seq<Job>, id: string, p: Patch)
    requires id !in Ids(jobs)
    ensures Update(jobs, id, p) == jobs
  {
    assert forall i :: 0 <= i < |jobs| ==> jobs[i].id != id by {
      forall i | 0 <= i < |jobs|
        ensures jobs[i].id != id
      {
        assert Ids(jobs)[i] == jobs[i].id;
      }
    }
  }

  /** Applying the same update twice is applying it once. */
  lemma UpdateIdempotent(jobs: seq<Job>, id: string, p: Patch)
    ensures Update(Update(jobs, id, p), id, p) == Update(jobs, id, p)
  {
    var once := Update(jobs, id, p);
    forall i | 0 <= i < |jobs|
      ensures Update(once, id, p)[i] == once[i]
    {
      if jobs[i].id == id {
        MergeIdempotent(jobs[i], p);
        if p.id.Some? && p.id.value != id {
          assert once[i].id != id;
        }
      }
    }
  }

  /** An update whose patch has no id key keeps every id in place. */
  lemma UpdateKeepsIds(jobs: seq<Job>, id: string, p: Patch)
    requires p.id.None?
    ensures Ids(Update(jobs, id, p)) == Ids(jobs)
  {
  }

  function WithoutId(id: string): Job -> bool {
    (j: Job) => j.id != id
  }

  /** The delete handler: when the user confirms, every record with that id
      is dropped; otherwise nothing changes. */
  function Delete(jobs: seq<Job>, id: string, confirmed: bool): (r: seq<Job>)
    ensures !confirmed ==> r == jobs
    ensures |r| <= |jobs|
    ensures forall i :: 0 <= i < |r| ==> confirmed ==> r[i].id != id
  {
    if confirmed then
      var r := Filter(jobs, WithoutId(id));
      assert forall i :: 0 <= i < |r| ==> WithoutId(id)(r[i]);
      r
    else jobs
  }

  /** A confirmed delete keeps exactly the records with another id, in order. */
  lemma DeleteExactly(jobs: seq<Job>, id: string, x: Job)
    ensures x in Delete(jobs, id, true) <==> x in jobs && x.id != id
    ensures IsSubsequence(Delete(jobs, id, true), jobs)
    ensures multiset(Delete(jobs, id, true))[x] == if x.id != id then multiset(jobs)[x] else 0
  {
    FilterMembership(jobs, WithoutId(id), x);
    FilterIsSubsequence(jobs, WithoutId(id));
    FilterMultiplicity(jobs, WithoutId(id), x);
  }

  /** Deleting an id no record has changes nothing. */
  lemma DeleteAbsentIsNoOp(jobs: seq<Job>, id: string, confirmed: bool)
    requires id !in Ids(jobs)
    ensures Delete(jobs, id, confirmed) == jobs
  {
    if confirmed {
      forall i | 0 <= i < |jobs|
        ensures WithoutId(id)(jobs[i])
      {
        assert Ids(jobs)[i] == jobs[i].id;
      }
      FilterKeepsAll(jobs, WithoutId(id));
    }
  }

  /** Deleting a freshly added record restores the list it was added to. */
  lemma AddThenDelete(jobs: seq<Job>, job: Job)
    requires job.id !in Ids(jobs)
    ensures Delete(Add(jobs, job), job.id, true) == jobs
  {
    assert Add(jobs, job)[1..] == jobs;
    DeleteAbsentIsNoOp(jobs, job.id, true);
  }

  /** A bulk add is the same as adding the batch one record at a time,
      last record first. */
  function AddEach(jobs: seq<Job>, batch: seq<Job>): seq<Job>
    decreases |batch|
  {
    if |batch| == 0 then jobs else Add(AddEach(jobs, batch[1..]), batch[0])
  }

  lemma BulkAddIsRepeatedAdd(jobs: seq<Job>, batch: seq<Job>)
    ensures BulkAdd(jobs, batch) == AddEach(jobs, batch)
  {
    AddEachPrepends(jobs, batch);
  }

  lemma {:induction false} AddEachPrepends(jobs: seq<Job>, batch: seq<Job>)
    ensures AddEach(jobs, batch) == batch + jobs
    decreases |batch|
  {
    if |batch| > 0 {
      var rest := batch[1..];
      AddEachPrepends(jobs, rest);
      calc {
        AddEach(jobs, batch);
        Add(AddEach(jobs, rest), batch[0]);
        [batch[0]] + (rest + jobs);
        ([batch[0]] + rest) + jobs;
        { assert batch == [batch[0]] + rest; }
        batch + jobs;
      }
    }
  }

  /** Two imports in a row put the later batch in front of the earlier one. */
  lemma BulkAddTwice(jobs: seq<Job>, first: seq<Job>, second: seq<Job>)
    ensures BulkAdd(BulkAdd(jobs, first), second) == BulkAdd(jobs, second + first)
  {
  }

  // ---------------------------------------------------------------- ids

  /** Adding a record whose id is fresh keeps the ids unique. */
  lemma AddKeepsUniqueIds(jobs: seq<Job>, job: Job)
    requires UniqueIds(jobs) && job.id !in Ids(jobs)
    ensures UniqueIds(Add(jobs, job))
  {
    var r := Add(jobs, job);
    forall i, j | 0 <= i < j < |r|
      ensures r[i].id != r[j].id
    {
      if i == 0 {
        assert Ids(jobs)[j - 1] == r[j].id;
      }
    }
  }

  /** A batch with unique ids, none of them already stored, keeps the ids unique. */
  lemma BulkAddKeepsUniqueIds(jobs: seq<Job>, batch: seq<Job>)
    requires UniqueIds(jobs) && UniqueIds(batch)
    requires forall i :: 0 <= i < |batch| ==> batch[i].id !in Ids(jobs)
    ensures UniqueIds(BulkAdd(jobs, batch))
  {
    var r := BulkAdd(jobs, batch);
    forall i, j | 0 <= i < j < |r|
      ensures r[i].id != r[j].id
    {
      if i < |batch| && |batch| <= j {
        assert r[i] == batch[i] && r[j] == jobs[j - |batch|];
        assert Ids(jobs)[j - |batch|] == r[j].id;
      } else if |batch| <= i {
        assert r[i] == jobs[i - |batch|] && r[j] == jobs[j - |batch|];
      }
    }
  }

  /** A confirmed or cancelled delete keeps the ids unique. */
  lemma DeleteKeepsUniqueIds(jobs: seq<Job>, id: string, confirmed: bool)
    requires UniqueIds(jobs)
    ensures UniqueIds(Delete(jobs, id, confirmed))
  {
    if confirmed {
      FilterIsSubsequence(jobs, WithoutId(id));
      SubsequenceKeepsUniqueIds(Delete(jobs, id, true), jobs);
    }
  }

  lemma {:induction false} SubsequenceKeepsUniqueIds(a: seq<Job>, b: seq<Job>)
    requires IsSubsequence(a, b) && UniqueIds(b)
    ensures UniqueIds(a)
    decreases |b|
  {
    if |a| > 0 && |b| > 0 {
      assert UniqueIds(b[1..]) by {
        forall i, j | 0 <= i < j < |b[1..]|
          ensures b[1..][i].id != b[1..][j].id
        {
          assert b[1..][i] == b[i + 1] && b[1..][j] == b[j + 1];
        }
      }
      if a[0] == b[0] {
        SubsequenceKeepsUniqueIds(a[1..], b[1..]);
        SubsequenceMembers(a[1..], b[1..]);
        forall i, j | 0 <= i < j < |a|
          ensures a[i].id != a[j].id
        {
          if i == 0 {
            assert a[j] == a[1..][j - 1];
            var k :| 0 <= k < |b[1..]| && b[1..][k] == a[1..][j - 1];
            assert b[k + 1] == a[j];
          } else {
            assert a[i] == a[1..][i - 1] && a[j] == a[1..][j - 1];
          }
        }
      } else {
        SubsequenceKeepsUniqueIds(a, b[1..]);
      }
    }
  }

  /** Every element of a subsequence is found in the longer sequence. */
  lemma {:induction false} SubsequenceMembers(a: seq<Job>, b: seq<Job>)
    requires IsSubsequence(a, b)
    ensures forall i :: 0 <= i < |a| ==> exists k :: 0 <= k < |b| && b[k] == a[i]
    decreases |b|
  {
    if |a| > 0 && |b| > 0 {
      if a[0] == b[0] {
        SubsequenceMembers(a[1..], b[1..]);
        forall i | 0 <= i < |a|
          ensures exists k :: 0 <= k < |b| && b[k] == a[i]
        {
          if i == 0 {
            assert b[0] == a[0];
          } else {
            assert a[i] == a[1..][i - 1];
            var k :| 0 <= k < |b[1..]| && b[1..][k] == a[1..][i - 1];
            assert b[k + 1] == a[i];
          }
        }
      } else {
        SubsequenceMembers(a, b[1..]);
        forall i | 0 <= i < |a|
          ensures exists k :: 0 <= k < |b| && b[k] == a[i]
        {
          var k :| 0 <= k < |b[1..]| && b[1..][k] == a[i];
          assert b[k + 1] == a[i];
        }
      }
    }
  }

  // ---------------------------------------------------------------- storage

  /** The value under the storage key: nothing, the JSON text of a record
      list (what the application writes), or a text that is not JSON at all
      and that `JSON.parse` rejects. */
  datatype Blob = Absent | Written(jobs: seq<Job>) | Unparsable(text: string)

  /** The lazy initial state: a falsy stored value (no value, or the empty
      text) gives the empty list; the JSON of a record list parses back to
      that list; any other text that is not JSON makes `JSON.parse` throw. */
  function Load(b: Blob): (r: Result<seq<Job>, string>)
    ensures b.Absent? ==> r == Success([])
    ensures b.Written? ==> r == Success(b.jobs)
    ensures b.Unparsable? ==> (r.Success? <==> b.text == "")
    ensures b.Unparsable? && r.Success? ==> r.value == []
  {
    match b
    case Absent => Success([])
    case Written(jobs) => Success(jobs)
    case Unparsable(text) => if text == "" then Success([]) else Failure(text)
  }

  /** The effect that writes the list back after every change. */
  function Persist(jobs: seq<Job>): Blob {
    Written(jobs)
  }

  /** What is persisted loads back unchanged. */
  lemma LoadPersist(jobs: seq<Job>)
    ensures Load(Persist(jobs)) == Success(jobs)
  {
  }

  /** Persisting what was loaded writes back the same list. */
  lemma PersistLoad(b: Blob)
    requires Load(b).Success?
    ensures Load(Persist(Load(b).value)) == Load(b)
  {
  }
}

=== FILE: text.dfy ===
/** The string primitives the importer and the list view rely on, with the
    exact JavaScript behaviour the dashboard depends on:
    `String.prototype.trim`, `split(/\r\n|\n/)`, `split(/,|;/)`,
    `includes` and (ASCII) `toLowerCase`. */
module Text {

  /** ECMAScript WhiteSpace and LineTerminator code points: what `trim` removes. */
  predicate IsSpace(c: char) {
    || c == '\t' || c == '\n' || c == '\U{000B}' || c == '\U{000C}' || c == '\r'
    || c == ' ' || c == '\U{00A0}' || c == '\U{1680}'
    || ('\U{2000}' <= c <= '\U{200A}')
    || c == '\U{2028}' || c == '\U{2029}' || c == '\U{202F}' || c == '\U{205F}'
    || c == '\U{3000}' || c == '\U{FEFF}'
  }

  predicate AllSpace(s: string) {
    forall i :: 0 <= i < |s| ==> IsSpace(s[i])
  }

  /** The column separators of the import format. */
  predicate IsDelimiter(c: char) {
    c == ',' || c == ';'
  }

  predicate NoDelimiter(s: string) {
    ',' !in s && ';' !in s
  }

  /** Number of column separators in `s`. */
  function DelimiterCount(s: string): nat {
    multiset(s)[','] + multiset(s)[';']
  }

  // ---------------------------------------------------------------- trim

  /** `s.trim()`: `s` without its leading and trailing white space. */
  function Trim(s: string): (r: string)
    ensures r == [] <==> AllSpace(s)
    ensures r != [] ==> !IsSpace(r[0]) && !IsSpace(r[|r| - 1])
    ensures (|s| == 0 || (!IsSpace(s[0]) && !IsSpace(s[|s| - 1]))) ==> r == s
    decreases |s|
  {
    if |s| > 0 && IsSpace(s[0]) then
      assert forall i :: 1 <= i < |s| ==> s[i] == s[1..][i - 1];
      Trim(s[1..])
    else if |s| > 0 && IsSpace(s[|s| - 1]) then
      assert forall i :: 0 <= i < |s| - 1 ==> s[i] == s[..|s| - 1][i];
      Trim(s[..|s| - 1])
    else s
  }

  /** `r` is `s` with the white-space prefix `s[..a]` and the white-space
      suffix `s[b..]` cut off. */
  predicate CutAt(s: string, r: string, a: int, b: int) {
    0 <= a <= b <= |s| && r == s[a..b] && AllSpace(s[..a]) && AllSpace(s[b..])
  }

  /** The trimmed text is the input with a white-space prefix and a
      white-space suffix cut off. */
  lemma {:induction false} TrimCutsMargins(s: string)
    ensures exists a, b :: CutAt(s, Trim(s), a, b)
    decreases |s|
  {
    if |s| > 0 && IsSpace(s[0]) {
      TrimCutsMargins(s[1..]);
      var a, b :| CutAt(s[1..], Trim(s[1..]), a, b);
      CutFront(s, Trim(s[1..]), a, b);
      assert CutAt(s, Trim(s), a + 1, b + 1);
    } else if |s| > 0 && IsSpace(s[|s| - 1]) {
      TrimCutsMargins(s[..|s| - 1]);
      var a, b :| CutAt(s[..|s| - 1], Trim(s[..|s| - 1]), a, b);
      CutBack(s, Trim(s[..|s| - 1]), a, b);
      assert CutAt(s, Trim(s), a, b);
    } else {
      assert CutAt(s, Trim(s), 0, |s|);
    }
  }

  /** A white-space character in front widens the cut prefix by one. */
  lemma CutFront(s: string, r: string, a: int, b: int)
    requires |s| > 0 && IsSpace(s[0]) && CutAt(s[1..], r, a, b)
    ensures CutAt(s, r, a + 1, b + 1)
  {
    var t := s[1..];
    assert t[a..b] == s[a + 1..b + 1];
    assert s[b + 1..] == t[b..];
    var front := s[..a + 1];
    forall i | 0 <= i < |front|
      ensures IsSpace(front[i])
    {
      if i > 0 {
        assert front[i] == t[..a][i - 1];
      }
    }
  }

  /** A white-space character at the end widens the cut suffix by one. */
  lemma CutBack(s: string, r: string, a: int, b: int)
    requires |s| > 0 && IsSpace(s[|s| - 1]) && CutAt(s[..|s| - 1], r, a, b)
    ensures CutAt(s, r, a, b)
  {
    var t := s[..|s| - 1];
    assert t[a..b] == s[a..b];
    assert s[..a] == t[..a];
    var back := s[b..];
    forall i | 0 <= i < |back|
      ensures IsSpace(back[i])
    {
      if i < |t| - b {
        assert back[i] == t[b..][i];
      }
    }
  }

  /** A string holding a non-space character never trims to empty. */
  lemma TrimNonEmpty(s: string, i: nat)
    requires i < |s| && !IsSpace(s[i])
    ensures Trim(s) != []
  {
  }

  /** A column separator is not white space, so a line holding one is not blank. */
  lemma DelimiterLineNotBlank(s: string)
    requires DelimiterCount(s) > 0
    ensures !AllSpace(s) && Trim(s) != []
  {
    var c := if ',' in s then ',' else ';';
    assert c in multiset(s);
    var i :| 0 <= i < |s| && s[i] == c;
    TrimNonEmpty(s, i);
  }

  // ---------------------------------------------------------------- splitting

  /** `s.split(/\r\n|\n/)`: lines separated by CRLF or LF; a lone CR is kept. */
  function SplitLines(s: string): (r: seq<string>)
    ensures |r| >= 1
    decreases |s|
  {
    if |s| == 0 then [""]
    else if s[0] == '\n' then [""] + SplitLines(s[1..])
    else if |s| >= 2 && s[0] == '\r' && s[1] == '\n' then [""] + SplitLines(s[2..])
    else
      var rest := SplitLines(s[1..]);
      [[s[0]] + rest[0]] + rest[1..]
  }

  /** `s.split(/,|;/)`: columns separated by a comma or a semicolon. */
  function SplitColumns(s: string): (r: seq<string>)
    ensures |r| >= 1
  {
    if |s| == 0 then [""]
    else
      var rest := SplitColumns(s[1..]);
      if IsDelimiter(s[0]) then [""] + rest
      else [[s[0]] + rest[0]] + rest[1..]
  }

  /** `parts.join(sep)`. */
  function Join(parts: seq<string>, sep: char): string
  {
    if |parts| == 0 then ""
    else if |parts| == 1 then parts[0]
    else parts[0] + [sep] + Join(parts[1..], sep)
  }

  /** Every LF ends exactly one line, whether or not a CR precedes it. */
  lemma {:induction false} LineCount(s: string)
    ensures |SplitLines(s)| == multiset(s)['\n'] + 1
    decreases |s|
  {
    if |s| == 0 {
    } else if s[0] == '\n' {
      LineCount(s[1..]);
      assert s == [s[0]] + s[1..];
    } else if |s| >= 2 && s[0] == '\r' && s[1] == '\n' {
      LineCount(s[2..]);
      assert s == [s[0]] + [s[1]] + s[2..];
    } else {
      LineCount(s[1..]);
      assert s == [s[0]] + s[1..];
    }
  }

  /** A piece produced by the line splitter never holds a line feed. */
  lemma {:induction false} LinesHaveNoLineFeed(s: string)
    ensures forall i :: 0 <= i < |SplitLines(s)| ==> '\n' !in SplitLines(s)[i]
    decreases |s|
  {
    if |s| == 0 {
    } else if s[0] == '\n' {
      LinesHaveNoLineFeed(s[1..]);
    } else if |s| >= 2 && s[0] == '\r' && s[1] == '\n' {
      LinesHaveNoLineFeed(s[2..]);
    } else {
      LinesHaveNoLineFeed(s[1..]);
      var rest := SplitLines(s[1..]);
      assert SplitLines(s) == [[s[0]] + rest[0]] + rest[1..];
      forall i | 0 <= i < |SplitLines(s)|
        ensures '\n' !in SplitLines(s)[i]
      {
        if i > 0 {
          assert SplitLines(s)[i] == rest[i];
        }
      }
    }
  }

  /** The column count is the number of separators plus one. */
  lemma {:induction false} ColumnCount(s: string)
    ensures |SplitColumns(s)| == DelimiterCount(s) + 1
  {
    if |s| > 0 {
      ColumnCount(s[1..]);
      assert s == [s[0]] + s[1..];
    }
  }

  /** A column produced by the splitter never holds a separator. */
  lemma {:induction false} ColumnsHaveNoDelimiter(s: string)
    ensures forall i :: 0 <= i < |SplitColumns(s)| ==> NoDelimiter(SplitColumns(s)[i])
  {
    if |s| > 0 {
      ColumnsHaveNoDelimiter(s[1..]);
      var rest := SplitColumns(s[1..]);
      if !IsDelimiter(s[0]) {
        forall i | 0 <= i < |SplitColumns(s)|
          ensures NoDelimiter(SplitColumns(s)[i])
        {
          if i > 0 {
            assert SplitColumns(s)[i] == rest[i];
          }
        }
      }
    }
  }

  lemma {:induction false} SplitColumnsSingle(a: string)
    requires NoDelimiter(a)
    ensures SplitColumns(a) == [a]
  {
    if |a| > 0 {
      assert a[0] in a;
      assert a[1..] == a[1..] && forall c :: c in a[1..] ==> c in a;
      SplitColumnsSingle(a[1..]);
      assert [a[0]] + a[1..] == a;
    }
  }

  lemma {:induction false} SplitColumnsCons(a: string, b: string)
    requires NoDelimiter(a)
    ensures SplitColumns(a + [','] + b) == [a] + SplitColumns(b)
  {
    if |a| == 0 {
      assert a + [','] + b == [','] + b;
      assert ([','] + b)[1..] == b;
    } else {
      assert a[0] in a;
      assert forall c :: c in a[1..] ==> c in a;
      SplitColumnsCons(a[1..], b);
      assert (a + [','] + b)[1..] == a[1..] + [','] + b;
      assert [a[0]] + a[1..] == a;
    }
  }

  /** Splitting comma-joined fields that hold no separator gives the fields back. */
  lemma {:induction false} SplitJoinColumns(fields: seq<string>)
    requires |fields| >= 1
    requires forall i :: 0 <= i < |fields| ==> NoDelimiter(fields[i])
    ensures SplitColumns(Join(fields, ',')) == fields
  {
    if |fields| == 1 {
      SplitColumnsSingle(fields[0]);
    } else {
      SplitJoinColumns(fields[1..]);
      SplitColumnsCons(fields[0], Join(fields[1..], ','));
    }
  }

  /** Joining the columns of a line without semicolons with commas gives the line back. */
  lemma {:induction false} JoinSplitColumns(s: string)
    requires ';' !in s
    ensures Join(SplitColumns(s), ',') == s
  {
    if |s| > 0 {
      assert forall c :: c in s[1..] ==> c in s;
      JoinSplitColumns(s[1..]);
      var rest := SplitColumns(s[1..]);
      if IsDelimiter(s[0]) {
        assert s == [','] + s[1..];
      } else {
        assert s == [s[0]] + s[1..];
        if |rest| > 1 {
          assert rest == [rest[0]] + rest[1..];
        }
      }
    }
  }

  /** A character that is not the separator and occurs in no part does not
      occur in the joined text. */
  lemma {:induction false} JoinAvoids(parts: seq<string>, sep: char, c: char)
    requires c != sep
    requires forall i :: 0 <= i < |parts| ==> c !in parts[i]
    ensures c !in Join(parts, sep)
  {
    if |parts| > 1 {
      JoinAvoids(parts[1..], sep, c);
    }
  }

  /** A joined text starts with the first part. */
  lemma {:induction false} JoinStartsWithFirst(parts: seq<string>, sep: char)
    requires |parts| >= 1
    ensures StartsWith(Join(parts, sep), parts[0])
  {
    if |parts| > 1 {
      assert Join(parts, sep) == parts[0] + ([sep] + Join(parts[1..], sep));
    }
  }

  /** Does a line end in a carriage return? */
  predicate EndsWithCR(s: string) {
    |s| > 0 && s[|s| - 1] == '\r'
  }

  /** Whatever the first line is, CRLF-terminated or not, the lines after
      it are the lines of the text following its line feed. */
  lemma {:induction false} SplitAfterFirstLine(h: string, b: string)
    requires '\n' !in h
    ensures SplitLines(h + ['\n'] + b)[1..] == SplitLines(b)
    decreases |h|
  {
    var s := h + ['\n'] + b;
    if |h| == 0 {
      assert s == ['\n'] + b;
      assert s[1..] == b;
    } else if h == ['\r'] {
      assert s[0] == '\r' && s[1] == '\n';
      assert s[2..] == b;
    } else {
      assert s[1..] == h[1..] + ['\n'] + b;
      assert forall c :: c in h[1..] ==> c in h;
      if h[0] == '\r' {
        assert h[1] in h;
      }
      SplitAfterFirstLine(h[1..], b);
    }
  }

  lemma {:induction false} SplitLinesSingle(a: string)
    requires '\n' !in a
    ensures SplitLines(a) == [a]
    decreases |a|
  {
    if |a| > 0 {
      assert forall c :: c in a[1..] ==> c in a;
      SplitLinesSingle(a[1..]);
      assert [a[0]] + a[1..] == a;
    }
  }

  lemma {:induction false} SplitLinesCons(a: string, b: string)
    requires '\n' !in a && !EndsWithCR(a)
    ensures SplitLines(a + ['\n'] + b) == [a] + SplitLines(b)
    decreases |a|
  {
    if |a| == 0 {
      assert a + ['\n'] + b == ['\n'] + b;
      assert (['\n'] + b)[1..] == b;
    } else {
      assert forall c :: c in a[1..] ==> c in a;
      assert a[0] != '\n' by { assert a[0] in a; }
      if |a| >= 2 {
        assert a[1] != '\n' by { assert a[1] in a; }
        assert a[|a| - 1] == a[1..][|a[1..]| - 1];
      }
      SplitLinesCons(a[1..], b);
      assert (a + ['\n'] + b)[1..] == a[1..] + ['\n'] + b;
      assert [a[0]] + a[1..] == a;
    }
  }

  /** Splitting LF-joined lines gives the lines back, provided no line holds a
      line feed and none but the last ends in a carriage return (which the
      splitter would swallow as part of a CRLF). */
  lemma {:induction false} SplitJoinLines(lines: seq<string>)
    requires |lines| >= 1
    requires forall i :: 0 <= i < |lines| ==> '\n' !in lines[i]
    requires forall i :: 0 <= i < |lines| - 1 ==> !EndsWithCR(lines[i])
    ensures SplitLines(Join(lines, '\n')) == lines
  {
    if |lines| == 1 {
      SplitLinesSingle(lines[0]);
    } else {
      SplitJoinLines(lines[1..]);
      SplitLinesCons(lines[0], Join(lines[1..], '\n'));
    }
  }

  // ---------------------------------------------------------------- searching

  predicate StartsWith(s: string, prefix: string) {
    |prefix| <= |s| && s[..|prefix|] == prefix
  }

  /** `hay.includes(needle)`. */
  predicate Includes(hay: string, needle: string)
    decreases |hay|
  {
    StartsWith(hay, needle) || (|hay| > 0 && Includes(hay[1..], needle))
  }

  /** `needle` occurs in `hay` starting at position `i`. */
  predicate OccursAt(hay: string, needle: string, i: int) {
    0 <= i && i + |needle| <= |hay| && hay[i..i + |needle|] == needle
  }

  /** `includes` holds exactly when `needle` occurs at some position of `hay`. */
  lemma {:induction false} IncludesIffOccurs(hay: string, needle: string)
    ensures Includes(hay, needle) <==> exists i :: OccursAt(hay, needle, i)
    decreases |hay|
  {
    if StartsWith(hay, needle) {
      assert OccursAt(hay, needle, 0);
    }
    if |hay| > 0 {
      IncludesIffOccurs(hay[1..], needle);
      if Includes(hay[1..], needle) {
        var i :| OccursAt(hay[1..], needle, i);
        assert OccursAt(hay, needle, i + 1);
      }
      if exists i :: OccursAt(hay, needle, i) {
        var i :| OccursAt(hay, needle, i);
        if i > 0 {
          assert OccursAt(hay[1..], needle, i - 1);
        } else {
          assert hay[..|needle|] == hay[0..|needle|];
        }
      }
    } else {
      if exists i :: OccursAt(hay, needle, i) {
        var i :| OccursAt(hay, needle, i);
        assert i == 0 && |needle| == 0;
        assert hay[..|needle|] == needle;
      }
    }
  }

  /** Every string includes the empty string. */
  lemma IncludesEmpty(hay: string)
    ensures Includes(hay, "")
  {
  }

  // ---------------------------------------------------------------- case

  function LowerChar(c: char): char {
    if 'A' <= c <= 'Z' then (c as int + 32) as char else c
  }

  /** `s.toLowerCase()`, for the ASCII letters. */
  function Lower(s: string): (r: string)
    ensures |r| == |s|
    ensures forall i :: 0 <= i < |s| ==> r[i] == LowerChar(s[i])
  {
    if |s| == 0 then "" else [LowerChar(s[0])] + Lower(s[1..])
  }

  /** Lower-casing twice is lower-casing once. */
  lemma LowerIdempotent(s: string)
    ensures Lower(Lower(s)) == Lower(s)
  {
  }
}
